=== FILE: README.md ===
# Slack bot for Databricks Genie, modelled in Dafny

The bot answers Slack messages with the help of a Databricks Genie space.
It has three parts, and this project models and proves all three.

- **The orchestrator** (`async_genie_query`, with the process-wide
  `conversation_tracker`).
  - A question from a Slack thread continues that thread's Genie
    conversation, or starts a new one and records it for the thread.
  - The orchestrator then polls the Genie message up to 25 times, two time
    units apart, until it is COMPLETED or FAILED.
  - It normalizes the answer into a result record or an error string.
    Every exception becomes an error string.
- **The renderer** (`format_dataframe_for_slack`) turns a result into Slack
  sections, in this order:
  - the query description;
  - a fixed-width pipe table, cut to ten rows and a footer when the table
    is longer than 2900 characters;
  - the SQL;
  - the narrative text, inserted at position 1.

  A row that cannot be laid out turns the table into an inline error
  section. A reply with nothing in it becomes "No results to display."
- **The message handler** (`handle_message`, and the `message` event entry
  point `handle_message_events`) filters incoming messages. A message it
  accepts gets these effects, in order:
  - a "Loading..." placeholder is posted;
  - the query runs, keyed by `thread_ts or ts`;
  - an error text is posted, or else the placeholder is deleted and the
    blocks are posted.

  Every reply goes to the message's own `ts`.

Files:

- `basics.dfy` holds `Option`, Python truthiness of optional strings, `[x] * n`
  and `list.insert`.
- `strings.dfy` holds the Python string operations used:
  - `join`, with `split` as its partner;
  - `ljust` and `strip`;
  - decimal rendering of a count, with its inverse.
- `results.dfy` holds the result record that the orchestrator produces and
  that the renderer and handler consume.
- `render.dfy` holds the renderer. The specification is written as
  functions on values and proved there. Two methods follow the program's
  own steps:
  - the in-place width pass over an `array`;
  - the appends plus one insert that build the block list.

  Each method is proved equal to the specification.
- `genie.dfy` holds the orchestrator:
  - a class `Orchestrator` whose `tracker` field is the conversation
    tracker;
  - the poll loop as a method;
  - the poll and the whole query as functions on values, with the lemmas
    about them.
- `handler.dfy` holds the handler and event entry point as functions from a
  message, the query outcome and the placeholder's timestamp to the list of
  outbound actions.

The Genie service is an oracle. A `Backend` value gives the reply, or the
raised exception, for each call kind. Poll answers are indexed by attempt
number. A query yields four things:
- its outcome;
- the exact sequence of service calls it made;
- the time it waited: nothing when opening the conversation raised,
  otherwise 1 unit plus 2 per non-terminal poll;
- the new tracker.

Where the code and the bot's description differ, the model follows the
code:
- The narrative is inserted at index 1 of the list built so far. Without a
  description the order is therefore table, narrative, SQL. It is not
  description, narrative, table, SQL in every case.
- The footer of a cut table always reads "Showing 10 of n rows", even when
  n is below 10.
- A row shorter than the header renders with fewer segments. It is not
  padded to the column count.
- The `message` event entry point rebuilds the message without `bot_id`. The
  bot filter of `handle_message` therefore never fires on that path.

## Model

| member | source | states |
|---|---|---|
| `Basics.InsertSecond` | slack_bot.py:125-129 | `list.insert(1, x)` puts `x` after the first element, or makes it the only element of an empty list |
| `Basics.Repeat` | slack_bot.py:100 | `[x] * n` has length n and every element is x |
| `Basics.InsertAt` | slack_bot.py:126 | `list.insert(i, x)` puts x at min(i, len), keeps the elements before it and shifts the rest up by one |
| `Strings.LeftJustify` | slack_bot.py:99-101 | `ljust(width)` yields `max(len, width)` characters: the original text followed only by spaces |
| `Strings.Join` | slack_bot.py:87-102 | `sep.join(parts)` opens with the first part; `SplitJoin` gives the lines back from the newline join |
| `Strings.Strip` | slack_bot.py:171 | the stripped text is a slice `s[i..j]` of the text with only whitespace before `i` and from `j` on; it is empty exactly when the text is all whitespace, and otherwise neither starts nor ends with whitespace |
| `Strings.SplitJoin` | slack_bot.py:102 | splitting a newline-join gives its lines back when no line contains a newline |
| `Strings.NatToString` | slack_bot.py:106 | the row count in the footer is a non-empty string of decimal digits with no leading zero unless the count is 0 |
| `Strings.DecimalRoundTrip` | slack_bot.py:106 | the footer's digits read back as the row count itself |
| `Render.CellRow` | slack_bot.py:92-96 | one cell string per cell of the row |
| `Render.CellRowAt` | slack_bot.py:92-97 | each cell string is `str(cell or "")`: a missing value becomes ""; `CellRows` collects these strings row by row |
| `Render.CellRowsStep` | slack_bot.py:97 | each outer iteration appends exactly the current row's cell strings |
| `Render.ColumnWidth` | slack_bot.py:90-95 | a column's width is at least its header's length and at least the length of every cell string in that column; `ColumnWidths` lists this width for each column |
| `Render.ColumnWidthAttained` | slack_bot.py:90-95 | the width is no wider than needed: it equals the header's length or the length of one of the column's cell strings |
| `Render.ColumnWidthStep` | slack_bot.py:93-95 | one more row widens a column to that row's cell when the cell is longer, and leaves columns the row does not reach unchanged |
| `Render.Widen` | slack_bot.py:93-95 | one row never narrows a column, makes every column the row has a cell for at least as wide as that cell, and leaves each width either unchanged or equal to the cell's length |
| `Render.SegmentsFillColumns` | slack_bot.py:99-101 | every padded header, divider and cell segment is exactly as wide as its column, and padding keeps the header or cell text at its start |
| `Render.LineAvoidsNewline` | slack_bot.py:99-101 | a table line built from newline-free cells holds no newline |
| `Render.TableIsJoinedParts` | slack_bot.py:102-106 | the table text is its lines joined by newlines: header, divider, then every data row; over 2900 characters, only the first min(10, n) rows, a blank line and the footer naming n |
| `Render.TablePartsAvoidNewline` | slack_bot.py:99-106 | no line of the table contains a newline when no header or cell does |
| `Render.TableLines` | slack_bot.py:102-106 | read line by line, the table text is exactly header, divider and the kept rows (plus blank line and footer when cut) |
| `Render.TableMarkdown` | slack_bot.py:102-106 | the table text always opens with the header and divider lines; a cut table ends with the footer naming the full row count |
| `Render.TableBlock` | slack_bot.py:86-117 | the table section is a table or its error section; it is the error section exactly when some row has more cells than there are columns, with the "list index out of range" text |
| `Render.RenderedBlocks` | slack_bot.py:76-137 | at least one block is always returned |
| `Render.AssembleBlocks` | slack_bot.py:125-135 | the assembled list is never empty |
| `Render.AppendedBlocks` | slack_bot.py:79-123 | at most three blocks are appended, at most one each for the description, the table and the SQL (which of them appear is stated by `AppendedMembers`) |
| `Render.SectionsHaveText` | slack_bot.py:79-135 | every section of a reply has non-empty text: description and narrative are added only when non-empty, the others carry fixed text; `SectionText` gives each section's mrkdwn text as the code writes it (the plain description and narrative, the table in a code fence, "Error formatting table: " before the error, the "Here’s the SQL I used:" preamble with an sql fence, "No results to display.") |
| `Render.AppendedKinds` | slack_bot.py:79-123 | one appended block per non-empty description, table and SQL; none is a narrative or the placeholder |
| `Render.AppendedMembers` | slack_bot.py:79-123 | description and SQL blocks are appended exactly when non-empty; the only table block is the given one |
| `Render.AppendedOrder` | slack_bot.py:79-123 | appended blocks are in description, table, SQL order, the description first |
| `Render.AssembledForm` | slack_bot.py:125-135 | non-empty text goes after the first appended block, or alone; an empty list becomes the placeholder |
| `Render.BlockCount` | slack_bot.py:79-137 | the block count is max(1, number of non-empty parts); "No results to display." appears exactly when every part is empty, and then alone |
| `Render.AssembledMembers` | slack_bot.py:79-135 | a block is in the reply exactly when it was appended, is the narrative, or is the placeholder of an empty reply |
| `Render.BlocksPresent` | slack_bot.py:79-129 | description, narrative and SQL sections each appear exactly when their field is non-empty |
| `Render.RenderedParts` | slack_bot.py:76-137 | the blocks of a reply hold the description, narrative and SQL sections each exactly when that field of the result is non-empty |
| `Render.TablePresent` | slack_bot.py:85-117 | the table section appears exactly when it is attempted, and it is the only table-ranked section |
| `Render.BlockOrder` | slack_bot.py:79-129 | apart from the narrative, sections keep description, table, SQL order; a description is always first |
| `Render.InsertedKeepsOrder` | slack_bot.py:125-129 | inserting the narrative at index 1 keeps the first block first and the other blocks in their order |
| `Render.NarrativePosition` | slack_bot.py:125-129 | the narrative sits at index min(1, len-1) and nowhere else |
| `Render.TableGated` | slack_bot.py:85-117 | a table or table-error section exists exactly when columns and rows are non-empty and table formatting is on; an over-long row yields the error section, no table, and the other sections unchanged |
| `Render.WidenStep` | slack_bot.py:91-97 | widening by row r turns the widths over rows[..r] into the widths over rows[..r+1] |
| `Render.WidenColumns` | slack_bot.py:92-96 | the inner loop succeeds exactly when the row has no more cells than columns, and then the widths are widened in place by that row and the cell strings are collected |
| `Render.ComputeWidths` | slack_bot.py:89-97 | the width pass succeeds exactly when every row fits, and then yields `ColumnWidths` (the per-column maximum) and `CellRows` (every row's cell strings) |
| `Render.FormatTable` | slack_bot.py:86-117 | the table block built step by step equals the specified table, or the "list index out of range" error block |
| `Render.FormatDataframeForSlack` | slack_bot.py:76-137 | the block list built with appends and one insert equals the specified rendering |
| `Genie.CompletedOutcome` | slack_bot.py:49-66 | the outcome is an error exactly when a query attachment's result fetch raised; otherwise the attachment's text, when present, is the result text, and description, SQL, columns and rows come from the attachment and the query result; each part defaults to "" or [] when absent |
| `Genie.Orchestrator.constructor` | slack_bot.py:31 | the tracker starts empty |
| `Genie.Orchestrator.Query` | slack_bot.py:33-74 | the query's outcome, service calls, elapsed time and new tracker are those of the query specification |
| `Genie.Resolve` | slack_bot.py:35-41 | a tracked thread continues its stored conversation, anything else starts one; the tracker keeps every entry and gains at most the thread's own key, holding the started conversation's id |
| `Genie.PollFrom` | slack_bot.py:45-72 | from attempt k: at most 25 - k polls; a wait after every poll but a terminal one, so as many waits as polls only on the timeout; a result fetch only after a poll |
| `Genie.QueryRun` | slack_bot.py:33-74 | 1 to 27 calls, the first opening the exchange; no wait exactly when opening raised, and at most 51 time units; the tracker is settled before polling |
| `Genie.Poll` | slack_bot.py:45-72 | the poll loop's outcome, calls and waits are those of the poll specification from attempt 0 |
| `Genie.Attempt` | slack_bot.py:47-68 | one pass of the loop body ends the poll exactly when the status is terminal or the call raised, and then its outcome and fetch are those the poll specification gives from that attempt |
| `Genie.ExtractResult` | slack_bot.py:49-66 | the COMPLETED branch returns the completed outcome and fetches the query result exactly when the first attachment has a query |
| `Genie.TrackerUpdate` | slack_bot.py:35-41 | a tracked thread continues its stored conversation with the tracker unchanged; an untracked truthy thread starts a conversation and gains exactly thread to new id when the start returns; a falsy thread leaves the tracker unchanged |
| `Genie.TrackerIgnoresPolling` | slack_bot.py:39-43 | the new tracker does not depend on any poll or result reply, so a later poll failure keeps the mapping |
| `Genie.TrackerOnlyGrows` | slack_bot.py:35-41 | no entry is removed or changed; the only possible new key is the query's own thread |
| `Genie.TrackerStaysOneToOne` | slack_bot.py:35-41 | no two threads share a conversation id after a query, provided they did not before and a started conversation's id is not already held by a thread (the code does not check this; it relies on the backend's ids being fresh) |
| `Genie.ThreadContinuesConversation` | slack_bot.py:35-41 | a second question on a thread whose first question started conversation c is sent to c |
| `Genie.PollPendingStep` | slack_bot.py:67-70 | a non-terminal status adds one poll and one wait to what follows |
| `Genie.PollSkipsPending` | slack_bot.py:45-70 | a run of non-terminal statuses only delays the ending reached after it |
| `Genie.PollStopsAtFailed` | slack_bot.py:67-68 | the first FAILED status, at attempt j, returns "Genie failed to return a response" after j+1 polls and j waits |
| `Genie.PollStopsAtCompleted` | slack_bot.py:49-66 | the first COMPLETED status, at attempt j, returns that message's outcome after j+1 polls and j waits |
| `Genie.PollStopsAtRaised` | slack_bot.py:73-74 | a poll that raises at attempt j returns the exception's text after j+1 polls |
| `Genie.PollTimesOut` | slack_bot.py:46-72 | 25 non-terminal statuses in a row return "Timed out waiting for Genie response" after 25 polls and 25 waits |
| `Genie.PollBounded` | slack_bot.py:45-72 | at most 25 polls; a wait follows every non-terminal poll; the result is fetched only after a COMPLETED message whose first attachment has a query |
| `Genie.QueryBounded` | slack_bot.py:43-72 | a query calls get_message at most 25 times, makes at most 27 calls, and waits at most 51 time units |
| `Genie.OpeningRaised` | slack_bot.py:73-74 | a start or continue call that raises returns its text at once, with no poll and the tracker unchanged |
| `Handler.HandleMessage` | slack_bot.py:167-191 | nothing happens exactly when the message is from a bot, has only whitespace, or comes from another channel kind; otherwise a "Loading..." post threaded to ts, then the query with the stripped text and the thread key, made as `UserId` (the `user` field, or "unknown_user" when it is missing) |
| `Handler.Triggers` | slack_bot.py:169-177 | a message is accepted exactly when it has no truthy bot_id, some non-whitespace character, and a channel kind of channel, im or group |
| `Handler.Replies` | slack_bot.py:182-191 | what follows the query never runs another query, is threaded to ts, and deletes the placeholder only after a result and only the placeholder that was posted |
| `Handler.ErrorDispatch` | slack_bot.py:179-184 | an error outcome gives exactly: "Loading..." post, query, "Error: e" post; the placeholder stays |
| `Handler.SuccessDispatch` | slack_bot.py:179-189 | a result gives exactly: "Loading..." post, query, deletion of the posted placeholder, post of the rendered blocks, all threaded to ts |
| `Handler.LostPlaceholderDispatch` | slack_bot.py:179-191 | a result after a placeholder post that returned nothing gives the "Loading..." post, the query, then the `TypeError` text posted as an error |
| `Handler.RepliesThreaded` | slack_bot.py:179-191 | for every message and outcome: every post is threaded to ts, the only query is the second action, and a deletion happens only after a result and removes the posted placeholder |
| `Handler.Filters` | slack_bot.py:169-177 | each filter on its own silences the handler: a truthy bot_id, all-whitespace text, or a channel kind other than channel, im or group |
| `Handler.QuestionIsStripped` | slack_bot.py:171-181 | the question sent is the message text with its leading and trailing whitespace removed, and it is non-empty |
| `Handler.SuccessPostsAnswer` | slack_bot.py:185-189 | on success the posted blocks are non-empty and contain the description, narrative and SQL exactly when those are non-empty |
| `Handler.HandleMessageEvent` | slack_bot.py:139-164 | an event with a subtype, or not of type message, does nothing; a plain message event is handled as its rebuilt message |
| `Handler.EventPathIgnoresBotId` | slack_bot.py:145-153 | the message that `EventMessage` rebuilds from the event has no bot_id, so on the event path a bot_id changes nothing, and a bot's plain message with text in an answered channel is answered |
| `Handler.ThreadReplyContinues` | slack_bot.py:181 | a reply in the thread opened by a top-level message is sent to the conversation that message started |
| `Handler.TopLevelSeedsConversation` | slack_bot.py:181 | an accepted top-level message with a ts gets the truthy key `ts` (the `ThreadKey` `thread_ts or ts`), so a conversation its query starts is recorded under that ts, and an already tracked ts is left as it is |

## Left out

- Configuration loading (`config.py`) is not part of this model. `FORMAT_TABLES` is a parameter of the renderer and the handler. `MAX_RETRIES`, `RETRY_INTERVAL` and `MAINTAIN_CONTEXT` are never read by the modelled code.
- The HTTP application and its routes (`app.py`, `routes/`) are not part of this model. They only pass requests through.
- The Slack and Databricks SDK calls are oracles, not models:
  - the Genie replies are fields of `Backend`;
  - the placeholder's returned timestamp is a parameter;
  - the query's outcome is a parameter of the handler.
- Slack `say` and `chat_delete` calls are assumed to succeed. One exception is modelled: the event path's wrapper can return `None` for a failed post, and `thinking_msg["ts"]` then raises, which posts the `TypeError` text.
- `asyncio.sleep` and the async structure become a count of time units.
- Interleaving of concurrent queries on one thread is not modelled. Each query is one atomic step on the tracker.
- `handle_mentions` is not modelled. Its regular expression only decides whether the raw event reaches `handle_message`.
- Bolt's choice of listener when both `message` listeners match is not modelled. The two entry points are modelled separately.
- Cells that are not strings are not modelled. Numbers and booleans have their own `str()` text and truthiness. Cells are strings or `None`.
- Logging is left out.
- The user id is carried into the query action and then unused, as in the code. A present `user` key whose value is `None` is not told apart from an absent one.
- `Render.WidenColumns`: the contract says nothing about the widths after a row that does not fit. Python has already widened the leading columns at that point, but the caller discards them.
- Exceptions from unexpected response shapes are not modelled, for example a missing `statement_response`. The result record is built from well-formed replies, and a `data_array` of `None` is taken as no rows.

=== FILE: basics.dfy ===
/** Small generic building blocks shared by the bot's model: optional values,
    Python truthiness of optional strings, and the list operations the bot
    relies on (repetition and Python's `list.insert`). */
module Basics {

  datatype Option<+T> = None | Some(value: T)

  /** Python truthiness of a value that is either `None` or a string:
      `None` and `""` are falsy, every other string is truthy. */
  predicate Truthy(o: Option<string>)
  {
    o.Some? && o.value != ""
  }

  function Max(a: int, b: int): int
  {
    if a < b then b else a
  }

  function Min(a: int, b: int): int
  {
    if a < b then a else b
  }

  /** `[x] * n` in Python. */
  function Repeat<T>(x: T, n: nat): (r: seq<T>)
    ensures |r| == n
    ensures forall i :: 0 <= i < n ==> r[i] == x
  {
    if n == 0 then [] else Repeat(x, n - 1) + [x]
  }

  /** Python's `list.insert(i, x)` for a non-negative index: an index past the
      end appends. */
  function InsertAt<T>(s: seq<T>, i: nat, x: T): (r: seq<T>)
    ensures |r| == |s| + 1
    ensures r[Min(i, |s|)] == x
    ensures r[..Min(i, |s|)] == s[..Min(i, |s|)]
    ensures r[Min(i, |s|) + 1..] == s[Min(i, |s|)..]
    ensures forall j :: 0 <= j < Min(i, |s|) ==> r[j] == s[j]
    ensures forall j :: Min(i, |s|) < j < |r| ==> r[j] == s[j - 1]
  {
    if i >= |s| then s + [x] else s[..i] + [x] + s[i..]
  }

  lemma AppendPair<T>(s: seq<T>, x: T, y: T)
    ensures s + [x, y] == s + [x] + [y]
  {
  }

  /** Inserting adds `x` and keeps every element that was there. */
  lemma InsertMembers<T>(s: seq<T>, i: nat, x: T, y: T)
    ensures y in InsertAt(s, i, x) <==> y in s || y == x
  {
    var r := InsertAt(s, i, x);
    var p := Min(i, |s|);
    if y in r {
      var k :| 0 <= k < |r| && r[k] == y;
      if k < p { assert s[k] == y; } else if k > p { assert s[k - 1] == y; }
    }
    if y in s {
      var k :| 0 <= k < |s| && s[k] == y;
      if k < p { assert r[k] == y; } else { assert r[k + 1] == y; }
    }
  }

  /** `list.insert(1, x)`: after the first element, or alone in an empty list. */
  lemma InsertSecond<T>(s: seq<T>, x: T)
    ensures InsertAt(s, 1, x) == if s == [] then [x] else [s[0], x] + s[1..]
  {
  }
}

=== FILE: genie.dfy ===
/** `async_genie_query` with the process-wide `conversation_tracker`: resolve
    the Genie conversation for a Slack thread (continue a tracked one, or
    start one and track it), then poll the message until it completes, fails
    or the attempts run out, and normalize the answer.

    The Genie service is an oracle: every call it answers is given as a
    `Reply` in a `Backend` value, message polls indexed by attempt. The sleeps
    become a count of elapsed time units. */
module Genie {
  import opened Basics
  import opened Results

  /** The poll loop makes at most this many `get_message` calls. */
  const MaxPolls := 25
  /** Time units waited once the conversation is resolved. */
  const InitialDelay := 1
  /** Time units waited after every non-terminal poll. */
  const PollInterval := 2
  const FailedMessage := "Genie failed to return a response"
  const TimeoutMessage := "Timed out waiting for Genie response"

  /** `MessageStatus`: the two terminal states, and every other one. */
  datatype Status = Completed | Failed | Running(name: string)

  /** The query part of an attachment. */
  datatype GeneratedQuery = GeneratedQuery(description: string, query: string)

  /** A message attachment: optional narrative text, optional query. */
  datatype Attachment = Attachment(text: Option<string>, query: Option<GeneratedQuery>)

  datatype Message = Message(status: Status, attachments: seq<Attachment>)

  /** The identifiers `start_conversation` and `create_message` hand back. */
  datatype Conversation = Conversation(spaceId: string, conversationId: string, messageId: string)

  /** The part of `get_message_query_result` the bot reads: column names and `data_array`. */
  datatype StatementResult = StatementResult(columns: seq<string>, rows: seq<seq<Cell>>)

  /** The answer of one service call: a value, or an exception with its text. */
  datatype Reply<T> = Ok(value: T) | Raised(message: string)

  /** The service's replies for one query; `getMessage(k)` answers poll attempt `k`. */
  datatype Backend = Backend(
    startConversation: Reply<Conversation>,
    createMessage: Reply<Conversation>,
    getMessage: nat -> Reply<Message>,
    getQueryResult: Reply<StatementResult>)

  /** The service calls a query makes, in order. */
  datatype Call =
    | StartConversation(spaceId: string, content: string)
    | CreateMessage(spaceId: string, conversationId: string, content: string)
    | GetMessage(conversation: Conversation)
    | GetQueryResult(conversation: Conversation)

  // ---------------------------------------------------------------------
  // Conversation resolution and the tracker

  /** The thread is truthy and already has a conversation. */
  predicate Tracked(tracker: map<string, string>, threadTs: Option<string>)
  {
    Truthy(threadTs) && threadTs.value in tracker
  }

  /** Which call opens the exchange, what it answered, and the tracker after it. */
  datatype Resolution = Resolution(call: Call, reply: Reply<Conversation>, tracker: map<string, string>)

  /** Opening the exchange: a tracked thread continues its conversation;
      anything else starts one. The tracker keeps every entry, and gains at
      most the thread's own key, only when a start succeeded. */
  function Resolve(tracker: map<string, string>, spaceId: string, question: string,
                   threadTs: Option<string>, b: Backend): (res: Resolution)
    ensures res.call.CreateMessage? <==> Tracked(tracker, threadTs)
    ensures res.call.CreateMessage? ==> res.call.conversationId == tracker[threadTs.value]
    ensures forall t :: t in tracker ==> t in res.tracker && res.tracker[t] == tracker[t]
    ensures forall t :: t in res.tracker && t !in tracker ==>
      threadTs == Some(t) && res.reply.Ok? && res.tracker[t] == res.reply.value.conversationId
  {
    if Tracked(tracker, threadTs) then
      Resolution(CreateMessage(spaceId, tracker[threadTs.value], question), b.createMessage, tracker)
    else
      var after :=
        if Truthy(threadTs) && b.startConversation.Ok?
        then tracker[threadTs.value := b.startConversation.value.conversationId]
        else tracker;
      Resolution(StartConversation(spaceId, question), b.startConversation, after)
  }

  // ---------------------------------------------------------------------
  // Result extraction and the poll loop, as a specification on values

  function FirstAttachment(m: Message): Option<Attachment>
  {
    if |m.attachments| > 0 then Some(m.attachments[0]) else None
  }

  /** The first attachment exists and carries a query. */
  predicate HasQuery(m: Message)
  {
    FirstAttachment(m).Some? && FirstAttachment(m).value.query.Some?
  }

  /** The outcome of a COMPLETED message: the query result is fetched only for
      an attachment with a query, and every missing part defaults to "" or []. */
  function CompletedOutcome(m: Message, b: Backend): (o: QueryOutcome)
    ensures o.Error? <==> HasQuery(m) && b.getQueryResult.Raised?
    ensures o.Error? ==> o.error == b.getQueryResult.message
    ensures o.Answer? && FirstAttachment(m).None? ==> o.result == QueryResult("", "", [], [], "")
    ensures o.Answer? ==> (o.result.text != "" ==> FirstAttachment(m).value.text == Some(o.result.text))
    ensures o.Answer? && FirstAttachment(m).Some? && FirstAttachment(m).value.text.Some? ==>
      o.result.text == FirstAttachment(m).value.text.value
    ensures o.Answer? && !HasQuery(m) ==>
      o.result.queryDescription == "" && o.result.sqlQuery == "" && o.result.columns == [] && o.result.rows == []
    ensures o.Answer? && HasQuery(m) ==>
      && o.result.queryDescription == FirstAttachment(m).value.query.value.description
      && o.result.sqlQuery == FirstAttachment(m).value.query.value.query
      && o.result.columns == b.getQueryResult.value.columns
      && o.result.rows == b.getQueryResult.value.rows
  {
    var attachment := FirstAttachment(m);
    if HasQuery(m) && b.getQueryResult.Raised? then Error(b.getQueryResult.message)
    else
      var query := if HasQuery(m) then Some(attachment.value.query.value) else None;
      var data := if HasQuery(m) then Some(b.getQueryResult.value) else None;
      Answer(QueryResult(
        text := if attachment.Some? && attachment.value.text.Some? then attachment.value.text.value else "",
        queryDescription := if query.Some? then query.value.description else "",
        columns := if data.Some? then data.value.columns else [],
        rows := if data.Some? then data.value.rows else [],
        sqlQuery := if query.Some? then query.value.query else ""))
  }

  /** How polling from some attempt on ends: the outcome, the number of
      `get_message` calls, the number of two-unit waits, and whether the
      query result was fetched. */
  datatype PollEnd = PollEnd(outcome: QueryOutcome, attempts: nat, waits: nat, fetched: bool)

  /** Poll attempt `k` answered with a non-terminal status. */
  predicate Pending(b: Backend, k: nat)
  {
    b.getMessage(k).Ok? && b.getMessage(k).value.status.Running?
  }

  /** The same ending, reached `n` non-terminal attempts later. */
  function Delayed(p: PollEnd, n: nat): PollEnd
  {
    PollEnd(p.outcome, p.attempts + n, p.waits + n, p.fetched)
  }

  /** Polling from attempt `k` to the first terminal status or the cap:
      never more polls than attempts are left, a wait after every poll but
      a terminal one (so as many waits as polls only on a timeout), and a
      fetch only at the end of at least one poll. */
  function PollFrom(b: Backend, k: nat): (p: PollEnd)
    ensures p.attempts <= if k <= MaxPolls then MaxPolls - k else 0
    ensures p.waits == p.attempts || p.waits + 1 == p.attempts
    ensures p.waits == p.attempts ==> p.outcome == Error(TimeoutMessage) && !p.fetched
    ensures p.fetched ==> p.attempts >= 1
    decreases MaxPolls - k
  {
    if k >= MaxPolls then PollEnd(Error(TimeoutMessage), 0, 0, false)
    else match b.getMessage(k)
      case Raised(e) => PollEnd(Error(e), 1, 0, false)
      case Ok(m) => if m.status.Running? then Delayed(PollFrom(b, k + 1), 1) else TerminalEnd(m, b)
  }

  /** The ending at a message with a terminal status. */
  function TerminalEnd(m: Message, b: Backend): PollEnd
    requires !m.status.Running?
  {
    if m.status.Completed? then PollEnd(CompletedOutcome(m, b), 1, 0, HasQuery(m))
    else PollEnd(Error(FailedMessage), 1, 0, false)
  }

  /** The `get_message` calls of a poll and the result fetch that may follow. */
  function PollCalls(conv: Conversation, p: PollEnd): seq<Call>
  {
    Repeat(GetMessage(conv), p.attempts) + if p.fetched then [GetQueryResult(conv)] else []
  }

  /** Everything one query does: outcome, calls, elapsed time, new tracker. */
  datatype Run = Run(outcome: QueryOutcome, calls: seq<Call>, elapsed: nat, tracker: map<string, string>)

  /** The first call opens the exchange; nothing is waited for when it
      raises, and otherwise one time unit plus two per non-terminal poll; at
      most 27 calls and 51 time units in all. */
  function QueryRun(tracker: map<string, string>, spaceId: string, question: string,
                    threadTs: Option<string>, b: Backend): (run: Run)
    ensures 1 <= |run.calls| <= MaxPolls + 2
    ensures run.calls[0].StartConversation? || run.calls[0].CreateMessage?
    ensures run.elapsed == 0 <==> Resolve(tracker, spaceId, question, threadTs, b).reply.Raised?
    ensures run.elapsed <= InitialDelay + PollInterval * MaxPolls
    ensures run.tracker == Resolve(tracker, spaceId, question, threadTs, b).tracker
  {
    var res := Resolve(tracker, spaceId, question, threadTs, b);
    match res.reply
    case Raised(e) => Run(Error(e), [res.call], 0, res.tracker)
    case Ok(conv) =>
      var p := PollFrom(b, 0);
      Run(p.outcome, [res.call] + PollCalls(conv, p), InitialDelay + PollInterval * p.waits, res.tracker)
  }

  // ---------------------------------------------------------------------
  // The orchestrator as the program runs it

  class Orchestrator {
    /** The Genie space every conversation is started in. */
    const spaceId: string
    /** `conversation_tracker`: Slack thread timestamp to Genie conversation id. */
    var tracker: map<string, string>

    constructor (spaceId: string)
      ensures this.spaceId == spaceId && tracker == map[]
    {
      this.spaceId := spaceId;
      tracker := map[];
    }

    /** `async_genie_query(user_id, question, thread_ts)`. The user id is
        accepted and not used. */
    method Query(userId: string, question: string, threadTs: Option<string>, backend: Backend)
      returns (outcome: QueryOutcome, calls: seq<Call>, elapsed: nat)
      modifies this
      ensures var run := QueryRun(old(tracker), spaceId, question, threadTs, backend);
        && outcome == run.outcome && calls == run.calls && elapsed == run.elapsed
        && tracker == run.tracker
    {
      var conv: Conversation;
      if Truthy(threadTs) && threadTs.value in tracker {
        var conversationId := tracker[threadTs.value];
        calls := [CreateMessage(spaceId, conversationId, question)];
        match backend.createMessage {
          case Raised(e) => return Error(e), calls, 0;
          case Ok(c) => conv := c;
        }
      } else {
        calls := [StartConversation(spaceId, question)];
        match backend.startConversation {
          case Raised(e) => return Error(e), calls, 0;
          case Ok(c) => conv := c;
        }
        if Truthy(threadTs) {
          tracker := tracker[threadTs.value := conv.conversationId];
        }
      }
      var pollCalls, waits;
      outcome, pollCalls, waits := Poll(conv, backend);
      calls := calls + pollCalls;
      elapsed := InitialDelay + PollInterval * waits;
    }
  }

  /** The poll loop of `async_genie_query`, from the first sleep on: at most
      25 `get_message` calls two time units apart, ending at the first
      terminal status or exception. */
  method Poll(conv: Conversation, backend: Backend)
    returns (outcome: QueryOutcome, calls: seq<Call>, waits: nat)
    ensures var p := PollFrom(backend, 0);
      outcome == p.outcome && calls == PollCalls(conv, p) && waits == p.waits
  {
    calls := [];
    var pollCount := 0;
    while pollCount < MaxPolls
      invariant 0 <= pollCount <= MaxPolls
      invariant calls == Repeat(GetMessage(conv), pollCount)
      invariant forall a :: 0 <= a < pollCount ==> Pending(backend, a)
    {
      calls := calls + [GetMessage(conv)];
      var finished, fetched;
      outcome, finished, fetched := Attempt(backend, pollCount);
      if finished {
        PollSkipsPending(backend, 0, pollCount);
        if fetched {
          calls := calls + [GetQueryResult(conv)];
        }
        return outcome, calls, pollCount;
      }
      pollCount := pollCount + 1;
    }
    PollTimesOut(backend);
    outcome := Error(TimeoutMessage);
    waits := MaxPolls;
  }

  /** One pass of the poll loop's body: `get_message`, then the COMPLETED
      and FAILED branches; an exception ends the query too. `finished` is
      false for a non-terminal status, and then `outcome` is only a filler
      that means nothing: the loop goes on to the next attempt. */
  method Attempt(backend: Backend, k: nat) returns (outcome: QueryOutcome, finished: bool, fetched: bool)
    requires k < MaxPolls
    ensures finished <==> !Pending(backend, k)
    ensures finished ==> PollFrom(backend, k) == PollEnd(outcome, 1, 0, fetched)
  {
    fetched := false;
    match backend.getMessage(k) {
      case Raised(e) =>
        return Error(e), true, false;
      case Ok(message) =>
        if message.status.Completed? {
          outcome, fetched := ExtractResult(message, backend);
          return outcome, true, fetched;
        } else if message.status.Failed? {
          return Error(FailedMessage), true, false;
        }
    }
    outcome, finished := Error(TimeoutMessage), false;
  }

  /** The COMPLETED branch of the poll loop: read the first attachment,
      fetch the query result when it carries a query, and fill the defaults.
      `fetched` says whether `get_message_query_result` was called. */
  method ExtractResult(message: Message, backend: Backend) returns (outcome: QueryOutcome, fetched: bool)
    ensures outcome == CompletedOutcome(message, backend)
    ensures fetched <==> HasQuery(message)
  {
    var attachment := if |message.attachments| > 0 then Some(message.attachments[0]) else None;
    fetched := attachment.Some? && attachment.value.query.Some?;
    var queryResult: Option<StatementResult> := None;
    if fetched {
      match backend.getQueryResult {
        case Raised(e) => return Error(e), fetched;
        case Ok(r) => queryResult := Some(r);
      }
    }
    var result := QueryResult(
      text := if attachment.Some? && attachment.value.text.Some? then attachment.value.text.value else "",
      queryDescription := if fetched then attachment.value.query.value.description else "",
      columns := if queryResult.Some? then queryResult.value.columns else [],
      rows := if queryResult.Some? then queryResult.value.rows else [],
      sqlQuery := if fetched then attachment.value.query.value.query else "");
    outcome := Answer(result);
  }

  // ---------------------------------------------------------------------
  // What the tracker promises

  /** A tracked thread continues its stored conversation and leaves the
      tracker alone; an untracked truthy thread starts a conversation and
      gains exactly that conversation's id, as soon as the start returns; a
      falsy thread starts an untracked conversation. */
  lemma TrackerUpdate(tracker: map<string, string>, spaceId: string, question: string,
                      threadTs: Option<string>, b: Backend)
    ensures var run := QueryRun(tracker, spaceId, question, threadTs, b);
      && (Tracked(tracker, threadTs) ==>
            run.calls[0] == CreateMessage(spaceId, tracker[threadTs.value], question) && run.tracker == tracker)
      && (!Tracked(tracker, threadTs) ==> run.calls[0] == StartConversation(spaceId, question))
      && (Truthy(threadTs) && !Tracked(tracker, threadTs) ==>
            run.tracker == if b.startConversation.Ok?
                           then tracker[threadTs.value := b.startConversation.value.conversationId]
                           else tracker)
      && (!Truthy(threadTs) ==> run.tracker == tracker)
  {
  }

  /** The tracker is written before polling: how polling goes has no
      bearing on it. */
  lemma TrackerIgnoresPolling(tracker: map<string, string>, spaceId: string, question: string,
                              threadTs: Option<string>, b1: Backend, b2: Backend)
    requires b1.startConversation == b2.startConversation && b1.createMessage == b2.createMessage
    ensures QueryRun(tracker, spaceId, question, threadTs, b1).tracker
         == QueryRun(tracker, spaceId, question, threadTs, b2).tracker
  {
  }

  /** Entries are never removed or changed; at most the query's own thread is added. */
  lemma TrackerOnlyGrows(tracker: map<string, string>, spaceId: string, question: string,
                         threadTs: Option<string>, b: Backend)
    ensures var after := QueryRun(tracker, spaceId, question, threadTs, b).tracker;
      && (forall t :: t in tracker ==> t in after && after[t] == tracker[t])
      && (forall t :: t in after && t !in tracker ==> threadTs == Some(t))
  {
  }

  /** No two threads share a conversation. */
  predicate OneToOne(tracker: map<string, string>)
  {
    forall t, u :: t in tracker && u in tracker && t != u ==> tracker[t] != tracker[u]
  }

  /** The tracker stays one-to-one as long as a started conversation gets an
      id no thread holds yet; the code itself does not check this, it relies
      on the backend handing out fresh ids. */
  lemma TrackerStaysOneToOne(tracker: map<string, string>, spaceId: string, question: string,
                             threadTs: Option<string>, b: Backend)
    requires OneToOne(tracker)
    requires b.startConversation.Ok? ==> b.startConversation.value.conversationId !in tracker.Values
    ensures OneToOne(QueryRun(tracker, spaceId, question, threadTs, b).tracker)
  {
  }

  /** A second question on a thread whose first question started
      conversation `c` continues `c`. */
  lemma ThreadContinuesConversation(tracker: map<string, string>, spaceId: string, thread: string,
                                    q1: string, q2: string, b1: Backend, b2: Backend)
    requires thread != "" && thread !in tracker && b1.startConversation.Ok?
    ensures var first := QueryRun(tracker, spaceId, q1, Some(thread), b1);
      QueryRun(first.tracker, spaceId, q2, Some(thread), b2).calls[0]
        == CreateMessage(spaceId, b1.startConversation.value.conversationId, q2)
  {
  }

  // ---------------------------------------------------------------------
  // What the poll loop promises

  /** A non-terminal attempt adds one poll and one wait to what follows it. */
  lemma PollPendingStep(b: Backend, k: nat)
    requires k < MaxPolls && Pending(b, k)
    ensures PollFrom(b, k) == Delayed(PollFrom(b, k + 1), 1)
  {
  }

  /** Non-terminal attempts from `k` up to `j` only postpone the ending
      reached at `j`. */
  lemma {:induction false} PollSkipsPending(b: Backend, k: nat, j: nat)
    requires k <= j <= MaxPolls
    requires forall a :: k <= a < j ==> Pending(b, a)
    ensures PollFrom(b, k) == Delayed(PollFrom(b, j), j - k)
    decreases j - k
  {
    if k < j {
      PollPendingStep(b, k);
      PollSkipsPending(b, k + 1, j);
      DelayedTwice(PollFrom(b, j), j - (k + 1), 1);
    }
  }

  lemma DelayedTwice(p: PollEnd, m: nat, n: nat)
    ensures Delayed(Delayed(p, m), n) == Delayed(p, m + n)
  {
  }

  /** The first FAILED status ends the poll with the failure message, after
      exactly that many `get_message` calls. */
  lemma PollStopsAtFailed(b: Backend, j: nat)
    requires j < MaxPolls && forall a :: 0 <= a < j ==> Pending(b, a)
    requires b.getMessage(j).Ok? && b.getMessage(j).value.status.Failed?
    ensures PollFrom(b, 0) == PollEnd(Error(FailedMessage), j + 1, j, false)
  {
    PollSkipsPending(b, 0, j);
  }

  /** The first COMPLETED status ends the poll with that message's result. */
  lemma PollStopsAtCompleted(b: Backend, j: nat)
    requires j < MaxPolls && forall a :: 0 <= a < j ==> Pending(b, a)
    requires b.getMessage(j).Ok? && b.getMessage(j).value.status.Completed?
    ensures var m := b.getMessage(j).value;
      PollFrom(b, 0) == PollEnd(CompletedOutcome(m, b), j + 1, j, HasQuery(m))
  {
    PollSkipsPending(b, 0, j);
  }

  /** A `get_message` call that raises ends the poll with the exception's text. */
  lemma PollStopsAtRaised(b: Backend, j: nat)
    requires j < MaxPolls && forall a :: 0 <= a < j ==> Pending(b, a)
    requires b.getMessage(j).Raised?
    ensures PollFrom(b, 0) == PollEnd(Error(b.getMessage(j).message), j + 1, j, false)
  {
    PollSkipsPending(b, 0, j);
  }

  /** Twenty-five non-terminal statuses in a row time the query out. */
  lemma PollTimesOut(b: Backend)
    requires forall a :: 0 <= a < MaxPolls ==> Pending(b, a)
    ensures PollFrom(b, 0) == PollEnd(Error(TimeoutMessage), MaxPolls, MaxPolls, false)
  {
    PollSkipsPending(b, 0, MaxPolls);
  }

  /** At most 25 polls from the start; a wait follows every poll but a
      terminal one; the result is fetched only after a COMPLETED message
      whose first attachment carries a query, as the last call. */
  lemma {:induction false} PollBounded(b: Backend, k: nat)
    requires k <= MaxPolls
    ensures var p := PollFrom(b, k);
      && p.attempts <= MaxPolls - k
      && (p.waits == p.attempts || p.waits + 1 == p.attempts)
      && (p.fetched ==>
            && p.attempts >= 1
            && b.getMessage(k + p.attempts - 1).Ok?
            && b.getMessage(k + p.attempts - 1).value.status.Completed?
            && HasQuery(b.getMessage(k + p.attempts - 1).value))
    decreases MaxPolls - k
  {
    if k < MaxPolls && Pending(b, k) {
      PollBounded(b, k + 1);
    }
  }

  function GetMessageCount(calls: seq<Call>): nat
  {
    if calls == [] then 0
    else GetMessageCount(calls[..|calls| - 1]) + if calls[|calls| - 1].GetMessage? then 1 else 0
  }

  lemma {:induction false} GetMessageCountAppend(a: seq<Call>, b: seq<Call>)
    ensures GetMessageCount(a + b) == GetMessageCount(a) + GetMessageCount(b)
    decreases |b|
  {
    if b == [] {
      assert a + b == a;
    } else {
      assert (a + b)[..|a + b| - 1] == a + b[..|b| - 1];
      assert (a + b)[|a + b| - 1] == b[|b| - 1];
      GetMessageCountAppend(a, b[..|b| - 1]);
    }
  }

  lemma {:induction false} GetMessageCountRepeat(c: Conversation, n: nat)
    ensures GetMessageCount(Repeat(GetMessage(c), n)) == n
  {
    if n > 0 {
      GetMessageCountRepeat(c, n - 1);
      assert Repeat(GetMessage(c), n)[..n - 1] == Repeat(GetMessage(c), n - 1);
    }
  }

  /** One query calls `get_message` at most 25 times and makes at most 27
      calls in all, and waits at most 1 + 25 * 2 = 51 time units. */
  lemma QueryBounded(tracker: map<string, string>, spaceId: string, question: string,
                     threadTs: Option<string>, b: Backend)
    ensures var run := QueryRun(tracker, spaceId, question, threadTs, b);
      && GetMessageCount(run.calls) <= MaxPolls
      && |run.calls| <= MaxPolls + 2
      && run.elapsed <= InitialDelay + PollInterval * MaxPolls
  {
    var res := Resolve(tracker, spaceId, question, threadTs, b);
    var run := QueryRun(tracker, spaceId, question, threadTs, b);
    assert !res.call.GetMessage?;
    assert GetMessageCount([res.call]) == 0 by {
      assert [res.call][..0] == [];
    }
    if res.reply.Ok? {
      var conv := res.reply.value;
      var p := PollFrom(b, 0);
      PollBounded(b, 0);
      GetMessageCountRepeat(conv, p.attempts);
      var tail := if p.fetched then [GetQueryResult(conv)] else [];
      assert GetMessageCount(tail) == 0 by {
        if p.fetched { assert tail[..0] == []; }
      }
      GetMessageCountAppend(Repeat(GetMessage(conv), p.attempts), tail);
      GetMessageCountAppend([res.call], PollCalls(conv, p));
    }
  }

  /** A start or continue call that raises ends the query at once with the
      exception's text; nothing is polled and the tracker is unchanged. */
  lemma OpeningRaised(tracker: map<string, string>, spaceId: string, question: string,
                      threadTs: Option<string>, b: Backend)
    requires Resolve(tracker, spaceId, question, threadTs, b).reply.Raised?
    ensures var run := QueryRun(tracker, spaceId, question, threadTs, b);
      && run.outcome == Error(Resolve(tracker, spaceId, question, threadTs, b).reply.message)
      && |run.calls| == 1 && run.elapsed == 0 && run.tracker == tracker
  {
  }
}

=== FILE: handler.dfy ===
/** `handle_message` and the `message` event entry point: which incoming
    messages start a query, which thread key the query uses, and the order of
    the bot's outbound effects. The query's outcome is a parameter (it is
    what `async_genie_query` returned), as is the timestamp that posting the
    "Loading..." placeholder returned. */
module Handler {
  import opened Basics
  import opened Strings
  import opened Results
  import opened Render
  import Genie

  const LoadingText := "Loading..."
  const DefaultUser := "unknown_user"
  /** The text of the `TypeError` raised by subscripting `None`. */
  const NotSubscriptable := "'NoneType' object is not subscriptable"

  /** The fields of a Slack message the handler reads. `user` is `None`
      when the key is absent. */
  datatype SlackMessage = SlackMessage(
    text: string,
    user: Option<string>,
    channel: Option<string>,
    ts: Option<string>,
    threadTs: Option<string>,
    channelType: Option<string>,
    botId: Option<string>)

  /** The bot's outbound effects, in the order it performs them. */
  datatype Action =
    | Post(text: string, threadTs: Option<string>)
    | RunQuery(userId: string, question: string, threadKey: Option<string>)
    | DeletePlaceholder(channel: Option<string>, ts: string)
    | PostBlocks(blocks: seq<Block>, threadTs: Option<string>)

  /** The channel kinds the bot answers in. */
  predicate AnsweredChannel(channelType: Option<string>)
  {
    channelType.Some? && channelType.value in {"channel", "im", "group"}
  }

  /** Not from a bot, some text besides whitespace, an answered channel kind. */
  predicate Triggers(m: SlackMessage): (accepted: bool)
    ensures accepted <==>
      && !Truthy(m.botId)
      && (exists i :: 0 <= i < |m.text| && !IsSpace(m.text[i]))
      && AnsweredChannel(m.channelType)
  {
    !Truthy(m.botId) && Strip(m.text) != "" && AnsweredChannel(m.channelType)
  }

  /** `thread_ts or ts`: the conversation key of the query. */
  function ThreadKey(m: SlackMessage): (key: Option<string>)
    ensures Truthy(m.threadTs) ==> key == m.threadTs
    ensures !Truthy(m.threadTs) ==> key == m.ts
  {
    if Truthy(m.threadTs) then m.threadTs else m.ts
  }

  /** `message.get("user", "unknown_user")`: whom the query is made for. */
  function UserId(m: SlackMessage): string
  {
    if m.user.Some? then m.user.value else DefaultUser
  }

  /** What follows the query: the error text on an error, otherwise the
      placeholder's deletion and the rendered blocks; when posting the
      placeholder returned nothing, looking up its timestamp raises and the
      error text of that is posted instead. */
  function Replies(m: SlackMessage, outcome: QueryOutcome, placeholder: Option<string>,
                   formatTables: bool): (replies: seq<Action>)
    ensures 1 <= |replies| <= 2
    ensures forall a :: a in replies ==> !a.RunQuery?
    ensures forall a :: a in replies && (a.Post? || a.PostBlocks?) ==> a.threadTs == m.ts
    ensures forall a :: a in replies && a.DeletePlaceholder? ==> outcome.Answer? && placeholder == Some(a.ts)
  {
    match outcome
    case Error(e) => [Post("Error: " + e, m.ts)]
    case Answer(r) =>
      if placeholder.None? then [Post("Error: " + NotSubscriptable, m.ts)]
      else [DeletePlaceholder(m.channel, placeholder.value), PostBlocks(RenderedBlocks(r, formatTables), m.ts)]
  }

  /** `handle_message(message, say)`. */
  function HandleMessage(m: SlackMessage, outcome: QueryOutcome, placeholder: Option<string>,
                         formatTables: bool): (acts: seq<Action>)
    ensures acts == [] <==> !Triggers(m)
    ensures Triggers(m) ==>
      && |acts| >= 3
      && acts[0] == Post(LoadingText, m.ts)
      && acts[1] == RunQuery(UserId(m), Strip(m.text), ThreadKey(m))
  {
    if !Triggers(m) then []
    else
      var acts := [Post(LoadingText, m.ts), RunQuery(UserId(m), Strip(m.text), ThreadKey(m))]
                  + Replies(m, outcome, placeholder, formatTables);
      assert acts[0] == Post(LoadingText, m.ts) && acts[1] == RunQuery(UserId(m), Strip(m.text), ThreadKey(m));
      acts
  }

  /** An accepted message: the placeholder, the query, then the replies. */
  lemma Accepted(m: SlackMessage, outcome: QueryOutcome, placeholder: Option<string>, formatTables: bool)
    requires Triggers(m)
    ensures HandleMessage(m, outcome, placeholder, formatTables)
         == [Post(LoadingText, m.ts), RunQuery(UserId(m), Strip(m.text), ThreadKey(m))]
            + Replies(m, outcome, placeholder, formatTables)
  {
  }

  /** An error outcome: the placeholder, the query, then the error text;
      the placeholder stays. */
  lemma ErrorDispatch(m: SlackMessage, e: string, placeholder: Option<string>, formatTables: bool)
    requires Triggers(m)
    ensures HandleMessage(m, Error(e), placeholder, formatTables)
         == [Post(LoadingText, m.ts), RunQuery(UserId(m), Strip(m.text), ThreadKey(m)), Post("Error: " + e, m.ts)]
  {
  }

  /** A result: the placeholder, the query, the placeholder's deletion,
      then the rendered blocks. */
  lemma SuccessDispatch(m: SlackMessage, r: QueryResult, placeholder: string, formatTables: bool)
    requires Triggers(m)
    ensures HandleMessage(m, Answer(r), Some(placeholder), formatTables)
         == [Post(LoadingText, m.ts), RunQuery(UserId(m), Strip(m.text), ThreadKey(m)),
             DeletePlaceholder(m.channel, placeholder), PostBlocks(RenderedBlocks(r, formatTables), m.ts)]
  {
    Accepted(m, Answer(r), Some(placeholder), formatTables);
    assert Replies(m, Answer(r), Some(placeholder), formatTables)
        == [DeletePlaceholder(m.channel, placeholder), PostBlocks(RenderedBlocks(r, formatTables), m.ts)];
  }

  /** A result after a placeholder post that returned nothing: reading the
      placeholder's timestamp raises, and that error's text is posted. */
  lemma LostPlaceholderDispatch(m: SlackMessage, r: QueryResult, formatTables: bool)
    requires Triggers(m)
    ensures HandleMessage(m, Answer(r), None, formatTables)
         == [Post(LoadingText, m.ts), RunQuery(UserId(m), Strip(m.text), ThreadKey(m)),
             Post("Error: " + NotSubscriptable, m.ts)]
  {
  }

  /** Every post is threaded to the message itself, never to the thread
      key; there is one query at most; the placeholder is deleted only on
      success, and only the one that was posted. */
  lemma RepliesThreaded(m: SlackMessage, outcome: QueryOutcome, placeholder: Option<string>,
                        formatTables: bool)
    ensures var acts := HandleMessage(m, outcome, placeholder, formatTables);
      && (forall a :: a in acts && (a.Post? || a.PostBlocks?) ==> a.threadTs == m.ts)
      && (forall a :: a in acts && a.RunQuery? ==> a == acts[1])
      && (forall a :: a in acts && a.DeletePlaceholder? ==> outcome.Answer? && placeholder == Some(a.ts))
  {
    var acts := HandleMessage(m, outcome, placeholder, formatTables);
    if Triggers(m) {
      var head := [Post(LoadingText, m.ts), RunQuery(UserId(m), Strip(m.text), ThreadKey(m))];
      var tail := Replies(m, outcome, placeholder, formatTables);
      Accepted(m, outcome, placeholder, formatTables);
      forall a | a in acts ensures a in head || a in tail {
      }
    }
  }

  /** Each filter alone silences the handler. */
  lemma Filters(m: SlackMessage, outcome: QueryOutcome, placeholder: Option<string>, formatTables: bool)
    ensures Truthy(m.botId) ==> HandleMessage(m, outcome, placeholder, formatTables) == []
    ensures (forall i :: 0 <= i < |m.text| ==> IsSpace(m.text[i])) ==>
      HandleMessage(m, outcome, placeholder, formatTables) == []
    ensures !AnsweredChannel(m.channelType) ==> HandleMessage(m, outcome, placeholder, formatTables) == []
  {
  }

  /** The question sent to the service is the message text with its leading
      and trailing whitespace removed, and it is not empty. */
  lemma QuestionIsStripped(m: SlackMessage, outcome: QueryOutcome, placeholder: Option<string>,
                           formatTables: bool)
    requires Triggers(m)
    ensures var q := HandleMessage(m, outcome, placeholder, formatTables)[1].question;
      && q != "" && !IsSpace(q[0]) && !IsSpace(q[|q| - 1])
      && exists i, j :: StrippedAt(m.text, q, i, j)
  {
    QuestionSent(m, outcome, placeholder, formatTables);
    StripKeepsText(m.text);
  }

  /** The query an accepted message makes carries its stripped text. */
  lemma QuestionSent(m: SlackMessage, outcome: QueryOutcome, placeholder: Option<string>,
                     formatTables: bool)
    requires Triggers(m)
    ensures HandleMessage(m, outcome, placeholder, formatTables)[1].question == Strip(m.text)
  {
  }

  /** Stripping a text that has a non-whitespace character leaves a
      non-empty middle slice with no whitespace at either end. */
  lemma StripKeepsText(s: string)
    requires exists i :: 0 <= i < |s| && !IsSpace(s[i])
    ensures var q := Strip(s);
      && q != "" && !IsSpace(q[0]) && !IsSpace(q[|q| - 1])
      && exists i, j :: StrippedAt(s, q, i, j)
  {
    var k :| 0 <= k < |s| && !IsSpace(s[k]);
  }

  /** The blocks posted on success hold every part of the answer: the
      description, narrative and SQL each appear exactly when non-empty,
      and at least one block is posted. */
  lemma SuccessPostsAnswer(m: SlackMessage, r: QueryResult, placeholder: string, formatTables: bool)
    requires Triggers(m)
    ensures var acts := HandleMessage(m, Answer(r), Some(placeholder), formatTables);
      && |acts[3].blocks| >= 1
      && (Description(r.queryDescription) in acts[3].blocks <==> r.queryDescription != "")
      && (Narrative(r.text) in acts[3].blocks <==> r.text != "")
      && (Sql(r.sqlQuery) in acts[3].blocks <==> r.sqlQuery != "")
  {
    SuccessDispatch(m, r, placeholder, formatTables);
    RenderedParts(r, formatTables);
  }

  // ---------------------------------------------------------------------
  // The `message` event entry point

  /** The fields of a `message` event; an absent key is `None`. */
  datatype MessageEvent = MessageEvent(
    eventType: Option<string>,
    subtype: Option<string>,
    text: Option<string>,
    user: Option<string>,
    channel: Option<string>,
    ts: Option<string>,
    threadTs: Option<string>,
    channelType: Option<string>,
    botId: Option<string>)

  /** The message dictionary `handle_message_events` rebuilds: it copies six
      fields and leaves `bot_id` out. */
  function EventMessage(e: MessageEvent): (m: SlackMessage)
    ensures m.botId == None
    ensures m.text == (if e.text.Some? then e.text.value else "")
    ensures m.ts == e.ts && m.threadTs == e.threadTs && m.channelType == e.channelType
  {
    SlackMessage(if e.text.Some? then e.text.value else "", e.user, e.channel, e.ts,
                 e.threadTs, e.channelType, None)
  }

  /** `handle_message_events(body, say)`: a `bot_add` event and any event
      with a subtype or of another type is dropped; a plain message goes to
      the handler. */
  function HandleMessageEvent(e: MessageEvent, outcome: QueryOutcome, placeholder: Option<string>,
                              formatTables: bool): (acts: seq<Action>)
    ensures Truthy(e.subtype) || e.eventType != Some("message") ==> acts == []
    ensures !Truthy(e.subtype) && e.eventType == Some("message") ==>
      acts == HandleMessage(EventMessage(e), outcome, placeholder, formatTables)
  {
    if e.subtype == Some("bot_add") then []
    else if e.eventType == Some("message") && !Truthy(e.subtype)
    then HandleMessage(EventMessage(e), outcome, placeholder, formatTables)
    else []
  }

  /** On the event path the bot filter never fires: a plain message event
      carrying a `bot_id` is answered just as one without it. */
  lemma EventPathIgnoresBotId(e: MessageEvent, outcome: QueryOutcome, placeholder: Option<string>,
                              formatTables: bool)
    ensures HandleMessageEvent(e, outcome, placeholder, formatTables)
         == HandleMessageEvent(e.(botId := None), outcome, placeholder, formatTables)
    ensures e.eventType == Some("message") && !Truthy(e.subtype) && e.text.Some?
            && Strip(e.text.value) != "" && AnsweredChannel(e.channelType) ==>
      HandleMessageEvent(e, outcome, placeholder, formatTables) != []
  {
  }

  // ---------------------------------------------------------------------
  // Handler and orchestrator together

  /** An accepted top-level message with a timestamp keys its query by that
      timestamp, so a conversation the query starts is recorded under it. */
  lemma TopLevelSeedsConversation(tracker: map<string, string>, spaceId: string, m: SlackMessage,
                                  b: Genie.Backend)
    requires Triggers(m) && !Truthy(m.threadTs) && Truthy(m.ts)
    ensures Truthy(ThreadKey(m))
    ensures var run := Genie.QueryRun(tracker, spaceId, Strip(m.text), ThreadKey(m), b);
      && (m.ts.value in tracker ==> run.tracker == tracker)
      && (m.ts.value !in tracker && b.startConversation.Ok? ==>
            run.tracker == tracker[m.ts.value := b.startConversation.value.conversationId])
  {
    Genie.TrackerUpdate(tracker, spaceId, Strip(m.text), ThreadKey(m), b);
  }

  /** A reply inside the thread a top-level message opened continues the
      conversation that message started: the top-level message keys its
      query by its own `ts`, the reply by its `thread_ts`, which is that
      `ts`. */
  lemma ThreadReplyContinues(tracker: map<string, string>, spaceId: string,
                             first: SlackMessage, reply: SlackMessage, b1: Genie.Backend, b2: Genie.Backend)
    requires Triggers(first) && Triggers(reply)
    requires !Truthy(first.threadTs) && Truthy(first.ts) && first.ts.value !in tracker
    requires reply.threadTs == first.ts
    requires b1.startConversation.Ok?
    ensures var run1 := Genie.QueryRun(tracker, spaceId, Strip(first.text), ThreadKey(first), b1);
      Genie.QueryRun(run1.tracker, spaceId, Strip(reply.text), ThreadKey(reply), b2).calls[0]
        == Genie.CreateMessage(spaceId, b1.startConversation.value.conversationId, Strip(reply.text))
  {
    Genie.ThreadContinuesConversation(tracker, spaceId, first.ts.value, Strip(first.text),
                                      Strip(reply.text), b1, b2);
  }
}

=== FILE: render.dfy ===
/** `format_dataframe_for_slack`: turns a query result into the ordered list
    of Slack sections the bot posts — description, narrative text, a
    fixed-width pipe table and the SQL — with a size cutoff on the table and
    a fallback section when a row cannot be laid out. */
module Render {
  import opened Basics
  import opened Strings
  import opened Results

  /** Above this many characters the table keeps only its first rows. */
  const TableCharLimit := 2900
  /** How many data rows a table over the limit keeps. */
  const TruncatedRowCount := 10
  /** The text of the IndexError raised by a row with more cells than columns. */
  const IndexErrorMessage := "list index out of range"

  /** One Slack section of the reply. */
  datatype Block =
    | Description(text: string)
    | Table(markdown: string)
    | TableError(message: string)
    | Sql(query: string)
    | Narrative(text: string)
    | NoResults

  /** The mrkdwn text of the section a block becomes. */
  function SectionText(b: Block): string
  {
    match b
    case Description(t) => t
    case Table(m) => "```" + m + "```"
    case TableError(e) => "Error formatting table: " + e
    case Sql(q) => "Here\U{2019}s the SQL I used:\n```sql\n" + q + "\n```"
    case Narrative(t) => t
    case NoResults => "No results to display."
  }

  // ---------------------------------------------------------------------
  // The table, as a specification on values

  /** Every row has at most one cell per column; a longer row makes the
      width loop index past the end of the width list. */
  predicate RowsFit(columns: seq<string>, rows: seq<seq<Cell>>)
  {
    forall r :: 0 <= r < |rows| ==> |rows[r]| <= |columns|
  }

  /** The cell strings of one row. */
  function CellRow(row: seq<Cell>): (t: seq<string>)
    ensures |t| == |row|
    decreases |row|
  {
    if row == [] then [] else CellRow(row[..|row| - 1]) + [CellText(row[|row| - 1])]
  }

  lemma {:induction false} CellRowAt(row: seq<Cell>, i: nat)
    requires i < |row|
    ensures CellRow(row)[i] == CellText(row[i])
    decreases |row|
  {
    if i < |row| - 1 {
      CellRowAt(row[..|row| - 1], i);
    }
  }

  /** The cell strings of every row. */
  function CellRows(rows: seq<seq<Cell>>): (t: seq<seq<string>>)
    ensures |t| == |rows|
    ensures forall r :: 0 <= r < |rows| ==> t[r] == CellRow(rows[r])
  {
    seq(|rows|, r requires 0 <= r < |rows| => CellRow(rows[r]))
  }

  lemma CellRowsStep(rows: seq<seq<Cell>>, r: nat)
    requires r < |rows|
    ensures CellRows(rows[..r + 1]) == CellRows(rows[..r]) + [CellRow(rows[r])]
  {
  }

  /** The width of column `i`: the longest of its header and of the cell
      strings at position `i` of the rows that have one. */
  function ColumnWidth(header: string, rows: seq<seq<Cell>>, i: nat): (w: nat)
    ensures w >= |header|
    ensures forall r :: 0 <= r < |rows| && i < |rows[r]| ==> w >= |CellText(rows[r][i])|
    decreases |rows|
  {
    if rows == [] then |header|
    else
      var prefix := rows[..|rows| - 1];
      var last := rows[|rows| - 1];
      var prev := ColumnWidth(header, prefix, i);
      assert forall r :: 0 <= r < |prefix| ==> prefix[r] == rows[r];
      if i < |last| then Max(prev, |CellText(last[i])|) else prev
  }

  /** The width is no wider than it must be: it is the header's length or
      the length of one of the column's cells. */
  lemma {:induction false} ColumnWidthAttained(header: string, rows: seq<seq<Cell>>, i: nat)
    ensures var w := ColumnWidth(header, rows, i);
      w == |header| || exists r :: 0 <= r < |rows| && i < |rows[r]| && w == |CellText(rows[r][i])|
    decreases |rows|
  {
    if rows != [] {
      var prefix := rows[..|rows| - 1];
      ColumnWidthAttained(header, prefix, i);
      var w := ColumnWidth(header, prefix, i);
      if w != |header| {
        var r :| 0 <= r < |prefix| && i < |prefix[r]| && w == |CellText(prefix[r][i])|;
        assert prefix[r] == rows[r];
      }
    }
  }

  /** Taking one more row into account widens column `i` to that row's cell
      when the cell is longer. */
  lemma ColumnWidthStep(header: string, rows: seq<seq<Cell>>, r: nat, i: nat)
    requires r < |rows|
    ensures ColumnWidth(header, rows[..r + 1], i)
      == if i < |rows[r]| then Max(ColumnWidth(header, rows[..r], i), |CellText(rows[r][i])|)
         else ColumnWidth(header, rows[..r], i)
  {
    assert rows[..r + 1][..r] == rows[..r];
  }

  function ColumnWidths(columns: seq<string>, rows: seq<seq<Cell>>): (w: seq<nat>)
    ensures |w| == |columns|
    ensures forall i :: 0 <= i < |columns| ==> w[i] == ColumnWidth(columns[i], rows, i)
  {
    seq(|columns|, i requires 0 <= i < |columns| => ColumnWidth(columns[i], rows, i))
  }

  /** `cell.ljust(col_widths[i])` for every cell of a line. */
  function PadAll(cells: seq<string>, widths: seq<nat>): seq<string>
    requires |cells| <= |widths|
  {
    seq(|cells|, i requires 0 <= i < |cells| => LeftJustify(cells[i], widths[i]))
  }

  /** `"-" * col_widths[i]` for every column. */
  function Dashes(widths: seq<nat>): seq<string>
  {
    seq(|widths|, i requires 0 <= i < |widths| => Repeat('-', widths[i]))
  }

  /** `"| " + " | ".join(segments) + " |"`. */
  function Line(segments: seq<string>): string
  {
    "| " + Join(" | ", segments) + " |"
  }

  function DataLines(cellRows: seq<seq<string>>, widths: seq<nat>): seq<string>
    requires forall r :: 0 <= r < |cellRows| ==> |cellRows[r]| <= |widths|
  {
    seq(|cellRows|, r requires 0 <= r < |cellRows| => Line(PadAll(cellRows[r], widths)))
  }

  function HeaderLine(columns: seq<string>, rows: seq<seq<Cell>>): string
  {
    Line(PadAll(columns, ColumnWidths(columns, rows)))
  }

  function DividerLine(columns: seq<string>, rows: seq<seq<Cell>>): string
  {
    Line(Dashes(ColumnWidths(columns, rows)))
  }

  function RowLines(columns: seq<string>, rows: seq<seq<Cell>>): seq<string>
    requires RowsFit(columns, rows)
  {
    DataLines(CellRows(rows), ColumnWidths(columns, rows))
  }

  /** The footer of a cut table. It says 10 whatever the row count is. */
  function Footer(rowCount: nat): string
  {
    "_Showing 10 of " + NatToString(rowCount) + " rows_"
  }

  /** The table with every data row. */
  function FullTable(columns: seq<string>, rows: seq<seq<Cell>>): string
    requires RowsFit(columns, rows)
  {
    HeaderLine(columns, rows) + "\n" + DividerLine(columns, rows) + "\n" + Join("\n", RowLines(columns, rows))
  }

  predicate IsCut(columns: seq<string>, rows: seq<seq<Cell>>)
    requires RowsFit(columns, rows)
  {
    |FullTable(columns, rows)| > TableCharLimit
  }

  /** The table text that goes between the code fences: it always opens
      with the header and divider lines, and a cut table closes with the
      footer naming the full row count. */
  function TableMarkdown(columns: seq<string>, rows: seq<seq<Cell>>): (md: string)
    requires RowsFit(columns, rows)
    ensures HeaderLine(columns, rows) + "\n" + DividerLine(columns, rows) + "\n" <= md
    ensures IsCut(columns, rows) ==>
      |Footer(|rows|)| <= |md| && md[|md| - |Footer(|rows|)|..] == Footer(|rows|)
  {
    var lines := RowLines(columns, rows);
    if IsCut(columns, rows) then
      HeaderLine(columns, rows) + "\n" + DividerLine(columns, rows) + "\n"
        + Join("\n", lines[..Min(TruncatedRowCount, |lines|)]) + "\n\n" + Footer(|lines|)
    else FullTable(columns, rows)
  }

  /** The table block, or the inline error block that replaces it when
      some row has more cells than there are columns. */
  function TableBlock(columns: seq<string>, rows: seq<seq<Cell>>): (b: Block)
    ensures b.Table? || b.TableError?
    ensures b.TableError? <==> exists r :: 0 <= r < |rows| && |rows[r]| > |columns|
    ensures b.TableError? ==> b.message == IndexErrorMessage
  {
    if RowsFit(columns, rows) then Table(TableMarkdown(columns, rows))
    else TableError(IndexErrorMessage)
  }

  /** The table is attempted only for non-empty columns and rows with table
      formatting switched on. */
  predicate TableShown(data: QueryResult, formatTables: bool)
  {
    |data.columns| > 0 && |data.rows| > 0 && formatTables
  }

  /** The blocks of a reply. */
  function RenderedBlocks(data: QueryResult, formatTables: bool): (blocks: seq<Block>)
    ensures |blocks| >= 1
  {
    var table := if TableShown(data, formatTables) then Some(TableBlock(data.columns, data.rows)) else None;
    AssembleBlocks(data.queryDescription, table, data.sqlQuery, data.text)
  }

  /** Description, table and SQL appended in that order, the narrative
      inserted at index 1, and a placeholder when nothing else is there. */
  function AssembleBlocks(description: string, table: Option<Block>, sql: string, text: string): (blocks: seq<Block>)
    ensures |blocks| >= 1
  {
    var appended := AppendedBlocks(description, table, sql);
    var withText := if text != "" then InsertAt(appended, 1, Narrative(text)) else appended;
    if withText == [] then [NoResults] else withText
  }

  /** The blocks appended before the narrative is inserted: at most one
      each of the description, the table and the SQL. */
  function AppendedBlocks(description: string, table: Option<Block>, sql: string): (a: seq<Block>)
    ensures |a| <= 3
  {
    (if description != "" then [Description(description)] else [])
    + (if table.Some? then [table.value] else [])
    + (if sql != "" then [Sql(sql)] else [])
  }

  // ---------------------------------------------------------------------
  // What the table and the block list promise

  /** Every padded header, divider and cell segment is exactly as wide as its
      column, and padding keeps the text it pads at its start. */
  lemma SegmentsFillColumns(columns: seq<string>, rows: seq<seq<Cell>>)
    requires RowsFit(columns, rows)
    ensures var w := ColumnWidths(columns, rows);
      && (forall i :: 0 <= i < |columns| ==>
            |PadAll(columns, w)[i]| == w[i] && PadAll(columns, w)[i][..|columns[i]|] == columns[i])
      && (forall i :: 0 <= i < |w| ==> |Dashes(w)[i]| == w[i])
      && (forall r, i :: 0 <= r < |rows| && 0 <= i < |rows[r]| ==>
            |PadAll(CellRows(rows)[r], w)[i]| == w[i]
            && PadAll(CellRows(rows)[r], w)[i][..|CellText(rows[r][i])|] == CellText(rows[r][i]))
  {
    var w := ColumnWidths(columns, rows);
    forall r, i | 0 <= r < |rows| && 0 <= i < |rows[r]|
      ensures |PadAll(CellRows(rows)[r], w)[i]| == w[i]
      ensures PadAll(CellRows(rows)[r], w)[i][..|CellText(rows[r][i])|] == CellText(rows[r][i])
    {
      CellRowAt(rows[r], i);
      var cells := CellRows(rows)[r];
      assert cells == CellRow(rows[r]) && cells[i] == CellText(rows[r][i]);
      assert PadAll(cells, w)[i] == LeftJustify(cells[i], w[i]);
      assert w[i] >= |cells[i]|;
    }
  }

  /** No header or cell holds a line break. */
  predicate NoNewlines(columns: seq<string>, rows: seq<seq<Cell>>)
  {
    && (forall i :: 0 <= i < |columns| ==> '\n' !in columns[i])
    && (forall r, i :: 0 <= r < |rows| && 0 <= i < |rows[r]| ==> '\n' !in CellText(rows[r][i]))
  }

  lemma LineAvoidsNewline(cells: seq<string>, widths: seq<nat>)
    requires |cells| <= |widths|
    requires forall i :: 0 <= i < |cells| ==> '\n' !in cells[i]
    ensures '\n' !in Line(PadAll(cells, widths))
  {
    forall i | 0 <= i < |cells| ensures '\n' !in PadAll(cells, widths)[i] {
      JustifyAvoids(cells[i], widths[i], '\n');
    }
    JoinAvoids(" | ", PadAll(cells, widths), '\n');
  }

  /** The lines of the table text: the header, the divider and every data
      row; over the size limit, the header, the divider, the first ten data
      rows (all of them when there are fewer), a blank line and the footer
      naming the full row count. */
  function TableParts(columns: seq<string>, rows: seq<seq<Cell>>): seq<string>
    requires RowsFit(columns, rows)
  {
    var lines := RowLines(columns, rows);
    [HeaderLine(columns, rows), DividerLine(columns, rows)]
      + if IsCut(columns, rows) then lines[..Min(TruncatedRowCount, |lines|)] + ["", Footer(|lines|)]
        else lines
  }

  lemma TableIsJoinedParts(columns: seq<string>, rows: seq<seq<Cell>>)
    requires RowsFit(columns, rows) && |rows| > 0
    ensures TableMarkdown(columns, rows) == Join("\n", TableParts(columns, rows))
  {
    var header, divider := HeaderLine(columns, rows), DividerLine(columns, rows);
    var lines := RowLines(columns, rows);
    if IsCut(columns, rows) {
      var kept := lines[..Min(TruncatedRowCount, |lines|)];
      JoinWithTrailer(header, divider, kept, Footer(|lines|));
      assert TableParts(columns, rows) == [header, divider] + kept + ["", Footer(|lines|)];
    } else {
      JoinTwoThen("\n", header, divider, lines);
    }
  }

  /** No data line holds a line break when no cell does. */
  lemma RowLinesAvoidNewline(columns: seq<string>, rows: seq<seq<Cell>>)
    requires RowsFit(columns, rows) && NoNewlines(columns, rows)
    ensures forall r :: 0 <= r < |rows| ==> '\n' !in RowLines(columns, rows)[r]
  {
    var w := ColumnWidths(columns, rows);
    var cellRows := CellRows(rows);
    forall r | 0 <= r < |rows| ensures '\n' !in RowLines(columns, rows)[r] {
      forall i | 0 <= i < |cellRows[r]| ensures '\n' !in cellRows[r][i] {
        CellRowAt(rows[r], i);
      }
      LineAvoidsNewline(cellRows[r], w);
    }
  }

  lemma TablePartsAvoidNewline(columns: seq<string>, rows: seq<seq<Cell>>)
    requires RowsFit(columns, rows) && NoNewlines(columns, rows)
    ensures forall k :: 0 <= k < |TableParts(columns, rows)| ==> '\n' !in TableParts(columns, rows)[k]
  {
    var w := ColumnWidths(columns, rows);
    var header, divider := HeaderLine(columns, rows), DividerLine(columns, rows);
    var lines := RowLines(columns, rows);
    assert '\n' !in header by {
      LineAvoidsNewline(columns, w);
    }
    assert '\n' !in divider by {
      JoinAvoids(" | ", Dashes(w), '\n');
    }
    assert forall r :: 0 <= r < |lines| ==> '\n' !in lines[r] by {
      RowLinesAvoidNewline(columns, rows);
    }
    var tail := if IsCut(columns, rows) then lines[..Min(TruncatedRowCount, |lines|)] + ["", Footer(|lines|)]
                else lines;
    if IsCut(columns, rows) {
      FooterAvoidsNewline(|lines|);
      CutAvoids(lines, Min(TruncatedRowCount, |lines|), Footer(|lines|), '\n');
    }
    assert TableParts(columns, rows) == [header, divider] + tail;
  }

  lemma FooterAvoidsNewline(n: nat)
    ensures '\n' !in Footer(n)
  {
    var digits := NatToString(n);
    assert '\n' !in digits by {
      forall i | 0 <= i < |digits| ensures digits[i] != '\n' {
      }
    }
  }

  /** Kept lines, a blank line and a footer avoid a character that the
      lines and the footer avoid. */
  lemma CutAvoids(lines: seq<string>, n: nat, footer: string, c: char)
    requires n <= |lines| && c !in footer
    requires forall r :: 0 <= r < |lines| ==> c !in lines[r]
    ensures var tail := lines[..n] + ["", footer];
      forall k :: 0 <= k < |tail| ==> c !in tail[k]
  {
  }

  /** Read line by line, the table text is exactly its parts. */
  lemma TableLines(columns: seq<string>, rows: seq<seq<Cell>>)
    requires RowsFit(columns, rows) && |rows| > 0 && NoNewlines(columns, rows)
    ensures Split(TableMarkdown(columns, rows), '\n') == TableParts(columns, rows)
  {
    TableIsJoinedParts(columns, rows);
    TablePartsAvoidNewline(columns, rows);
    SplitJoin(TableParts(columns, rows), '\n');
  }

  /** The rank that fixes the relative order of the non-narrative blocks. */
  function Rank(b: Block): nat
  {
    match b
    case Description(_) => 0
    case Table(_) => 1
    case TableError(_) => 1
    case Sql(_) => 2
    case Narrative(_) => 3
    case NoResults => 4
  }

  /** How many content blocks there are. */
  function ContentCount(description: string, table: Option<Block>, sql: string, text: string): nat
  {
    (if description != "" then 1 else 0) + (if table.Some? then 1 else 0)
    + (if sql != "" then 1 else 0) + (if text != "" then 1 else 0)
  }

  /** The appended blocks: one per non-empty field among description, table
      and SQL, none of them a narrative or the placeholder. */
  lemma AppendedKinds(description: string, table: Option<Block>, sql: string)
    requires table.Some? ==> Rank(table.value) == 1
    ensures var a := AppendedBlocks(description, table, sql);
      && |a| == ContentCount(description, table, sql, "")
      && (forall i :: 0 <= i < |a| ==> Rank(a[i]) < 3)
  {
  }

  /** The appended blocks hold each given part, and their only table-ranked
      block is the given table. */
  lemma AppendedMembers(description: string, table: Option<Block>, sql: string)
    requires table.Some? ==> Rank(table.value) == 1
    ensures var a := AppendedBlocks(description, table, sql);
      && (Description(description) in a <==> description != "")
      && (Sql(sql) in a <==> sql != "")
      && (forall b :: b in a && Rank(b) == 1 ==> table == Some(b))
      && (table.Some? ==> table.value in a)
  {
    var d := if description != "" then [Description(description)] else [];
    var t := if table.Some? then [table.value] else [];
    var q := if sql != "" then [Sql(sql)] else [];
    var a := d + t + q;
    assert a == AppendedBlocks(description, table, sql);
    assert forall i :: 0 <= i < |a| ==>
      (i < |d| ==> a[i] == d[i]) && (|d| <= i < |d| + |t| ==> a[i] == t[i - |d|])
      && (|d| + |t| <= i ==> a[i] == q[i - |d| - |t|]);
    if table.Some? {
      assert a[|d|] == table.value;
    }
  }

  /** The appended blocks are in rank order, the description first. */
  lemma AppendedOrder(description: string, table: Option<Block>, sql: string)
    requires table.Some? ==> Rank(table.value) == 1
    ensures var a := AppendedBlocks(description, table, sql);
      && (forall i, j :: 0 <= i < j < |a| ==> Rank(a[i]) < Rank(a[j]))
      && (description != "" ==> a[0] == Description(description))
  {
    var d := if description != "" then [Description(description)] else [];
    var t := if table.Some? then [table.value] else [];
    var q := if sql != "" then [Sql(sql)] else [];
    var a := d + t + q;
    assert a == AppendedBlocks(description, table, sql);
    forall i | 0 <= i < |a|
      ensures Rank(a[i]) == if i < |d| then 0 else if i < |d| + |t| then 1 else 2
    {
      if i < |d| { assert a[i] == d[i]; }
      else if i < |d| + |t| { assert a[i] == t[i - |d|]; }
      else { assert a[i] == q[i - |d| - |t|]; }
    }
  }

  /** The assembled list spelled out: the narrative, when there is one,
      goes after the first appended block. */
  lemma AssembledForm(description: string, table: Option<Block>, sql: string, text: string)
    ensures var a := AppendedBlocks(description, table, sql);
      AssembleBlocks(description, table, sql, text)
      == if text == "" then (if a == [] then [NoResults] else a)
         else if a == [] then [Narrative(text)]
         else [a[0], Narrative(text)] + a[1..]
  {
    if text != "" {
      InsertSecond(AppendedBlocks(description, table, sql), Narrative(text));
    }
  }

  /** There is one block per non-empty field, and the placeholder alone
      exactly when every field is empty. */
  lemma BlockCount(description: string, table: Option<Block>, sql: string, text: string)
    requires table.Some? ==> Rank(table.value) == 1
    ensures var blocks := AssembleBlocks(description, table, sql, text);
      && |blocks| == Max(1, ContentCount(description, table, sql, text))
      && (NoResults in blocks <==> ContentCount(description, table, sql, text) == 0)
      && (NoResults in blocks ==> blocks == [NoResults])
  {
    var a := AppendedBlocks(description, table, sql);
    var blocks := AssembleBlocks(description, table, sql, text);
    AppendedKinds(description, table, sql);
    AssembledForm(description, table, sql, text);
    assert NoResults !in a by {
      forall i | 0 <= i < |a| ensures a[i] != NoResults {
        assert Rank(a[i]) < 3;
      }
    }
    if text == "" {
    } else if a == [] {
      assert blocks == [Narrative(text)];
    } else {
      assert blocks == [a[0], Narrative(text)] + a[1..];
      assert a == [a[0]] + a[1..];
      assert NoResults !in blocks;
    }
  }

  /** A block is assembled exactly when it was appended, is the narrative,
      or is the placeholder of an empty reply. */
  lemma AssembledMembers(description: string, table: Option<Block>, sql: string, text: string, b: Block)
    ensures var a := AppendedBlocks(description, table, sql);
      b in AssembleBlocks(description, table, sql, text)
      <==> b in a || (text != "" && b == Narrative(text)) || (text == "" && a == [] && b == NoResults)
  {
    var a := AppendedBlocks(description, table, sql);
    var blocks := AssembleBlocks(description, table, sql, text);
    if text != "" {
      assert blocks == InsertAt(a, 1, Narrative(text));
      InsertMembers(a, 1, Narrative(text), b);
    }
  }

  /** Each text block appears exactly when its field is non-empty. */
  lemma BlocksPresent(description: string, table: Option<Block>, sql: string, text: string)
    requires table.Some? ==> Rank(table.value) == 1
    ensures var blocks := AssembleBlocks(description, table, sql, text);
      && (Description(description) in blocks <==> description != "")
      && (Narrative(text) in blocks <==> text != "")
      && (Sql(sql) in blocks <==> sql != "")
  {
    var a := AppendedBlocks(description, table, sql);
    AppendedKinds(description, table, sql);
    AppendedMembers(description, table, sql);
    assert Narrative(text) !in a by {
      forall i | 0 <= i < |a| ensures a[i] != Narrative(text) {
        assert Rank(a[i]) < 3;
      }
    }
    AssembledMembers(description, table, sql, text, Description(description));
    AssembledMembers(description, table, sql, text, Narrative(text));
    AssembledMembers(description, table, sql, text, Sql(sql));
  }

  /** The table block appears exactly when it is given, and it is the only
      table-ranked block. */
  lemma TablePresent(description: string, table: Option<Block>, sql: string, text: string)
    requires table.Some? ==> Rank(table.value) == 1
    ensures var blocks := AssembleBlocks(description, table, sql, text);
      && (forall b :: b in blocks && Rank(b) == 1 ==> table == Some(b))
      && (table.Some? ==> table.value in blocks)
  {
    AppendedMembers(description, table, sql);
    if table.Some? {
      AssembledMembers(description, table, sql, text, table.value);
    }
    forall b | b in AssembleBlocks(description, table, sql, text) && Rank(b) == 1 ensures table == Some(b) {
      AssembledMembers(description, table, sql, text, b);
    }
  }

  /** The reply's blocks hold the description, narrative and SQL each
      exactly when that part is non-empty. */
  lemma RenderedParts(data: QueryResult, formatTables: bool)
    ensures var blocks := RenderedBlocks(data, formatTables);
      && (Description(data.queryDescription) in blocks <==> data.queryDescription != "")
      && (Narrative(data.text) in blocks <==> data.text != "")
      && (Sql(data.sqlQuery) in blocks <==> data.sqlQuery != "")
  {
    var table := if TableShown(data, formatTables) then Some(TableBlock(data.columns, data.rows)) else None;
    BlocksPresent(data.queryDescription, table, data.sqlQuery, data.text);
  }

  /** Every section of a reply has text: the description and narrative are
      added only when non-empty, and the other sections carry fixed text. */
  lemma SectionsHaveText(data: QueryResult, formatTables: bool)
    ensures forall b :: b in RenderedBlocks(data, formatTables) ==> SectionText(b) != ""
  {
    var table := if TableShown(data, formatTables) then Some(TableBlock(data.columns, data.rows)) else None;
    AppendedHaveText(data.queryDescription, table, data.sqlQuery);
    forall b | b in RenderedBlocks(data, formatTables) ensures SectionText(b) != "" {
      AssembledMembers(data.queryDescription, table, data.sqlQuery, data.text, b);
    }
  }

  lemma AppendedHaveText(description: string, table: Option<Block>, sql: string)
    requires table.Some? ==> table.value.Table? || table.value.TableError?
    ensures forall b :: b in AppendedBlocks(description, table, sql) ==> SectionText(b) != ""
  {
    var d := if description != "" then [Description(description)] else [];
    var t := if table.Some? then [table.value] else [];
    var q := if sql != "" then [Sql(sql)] else [];
    assert AppendedBlocks(description, table, sql) == d + t + q;
  }

  /** Description, table and SQL keep that order, the description first. */
  lemma BlockOrder(description: string, table: Option<Block>, sql: string, text: string)
    requires table.Some? ==> Rank(table.value) == 1
    ensures var blocks := AssembleBlocks(description, table, sql, text);
      && (forall i, j :: 0 <= i < j < |blocks| && !blocks[i].Narrative? && !blocks[j].Narrative? ==>
            Rank(blocks[i]) < Rank(blocks[j]))
      && (description != "" ==> blocks[0] == Description(description))
  {
    var a := AppendedBlocks(description, table, sql);
    var blocks := AssembleBlocks(description, table, sql, text);
    if a == [] {
      assert |blocks| == 1;
    } else if text == "" {
      AppendedOrder(description, table, sql);
      assert blocks == a;
    } else {
      AppendedOrder(description, table, sql);
      assert blocks == InsertAt(a, 1, Narrative(text));
      InsertedKeepsOrder(a, Narrative(text));
    }
  }

  /** Inserting the narrative at index 1 leaves the other blocks in order. */
  lemma InsertedKeepsOrder(a: seq<Block>, narrative: Block)
    requires |a| > 0 && narrative.Narrative?
    requires forall i, j :: 0 <= i < j < |a| ==> Rank(a[i]) < Rank(a[j])
    ensures var blocks := InsertAt(a, 1, narrative);
      && blocks[0] == a[0]
      && forall i, j :: 0 <= i < j < |blocks| && !blocks[i].Narrative? && !blocks[j].Narrative? ==>
           Rank(blocks[i]) < Rank(blocks[j])
  {
    var blocks := InsertAt(a, 1, narrative);
    forall i, j | 0 <= i < j < |blocks| && !blocks[i].Narrative? && !blocks[j].Narrative?
      ensures Rank(blocks[i]) < Rank(blocks[j])
    {
      var i' := if i == 0 then 0 else i - 1;
      assert blocks[i] == a[i'] && blocks[j] == a[j - 1];
    }
  }

  /** The narrative is inserted at index 1, which puts it at index 0 when it
      is the only block and last when only one block was appended. */
  lemma NarrativePosition(description: string, table: Option<Block>, sql: string, text: string)
    requires table.Some? ==> Rank(table.value) == 1
    ensures var blocks := AssembleBlocks(description, table, sql, text);
      && (text != "" ==> blocks[Min(1, |blocks| - 1)] == Narrative(text))
      && (forall i :: 0 <= i < |blocks| && blocks[i].Narrative? ==> text != "" && i == Min(1, |blocks| - 1))
  {
    var a := AppendedBlocks(description, table, sql);
    var blocks := AssembleBlocks(description, table, sql, text);
    AppendedKinds(description, table, sql);
    if text != "" {
      assert blocks == InsertAt(a, 1, Narrative(text));
      InsertedPosition(a, Narrative(text));
    } else if a == [] {
      assert blocks == [NoResults];
    } else {
      assert blocks == a;
    }
  }

  /** Inserting the narrative at index 1 into blocks of lower rank puts it at
      index min(1, len - 1) and nowhere else. */
  lemma InsertedPosition(a: seq<Block>, narrative: Block)
    requires narrative.Narrative?
    requires forall i :: 0 <= i < |a| ==> Rank(a[i]) < 3
    ensures var blocks := InsertAt(a, 1, narrative);
      && blocks[Min(1, |blocks| - 1)] == narrative
      && forall i :: 0 <= i < |blocks| && blocks[i].Narrative? ==> i == Min(1, |blocks| - 1)
  {
    var blocks := InsertAt(a, 1, narrative);
    forall i | 0 <= i < |blocks| && i != Min(1, |a|) ensures Rank(blocks[i]) < 3 {
      if i < Min(1, |a|) { assert blocks[i] == a[i]; } else { assert blocks[i] == a[i - 1]; }
    }
  }

  /** The table (or its error block) is produced only when columns and rows
      are both non-empty and table formatting is on; a row that cannot be laid
      out costs the table only: the error block takes its place and the other
      blocks are still rendered. */
  lemma TableGated(data: QueryResult, formatTables: bool)
    ensures var blocks := RenderedBlocks(data, formatTables);
      && ((exists b :: b in blocks && (b.Table? || b.TableError?)) <==> TableShown(data, formatTables))
      && (TableShown(data, formatTables) && !RowsFit(data.columns, data.rows) ==>
            && TableError(IndexErrorMessage) in blocks
            && (forall b :: b in blocks ==> !b.Table?)
            && (data.sqlQuery != "" <==> Sql(data.sqlQuery) in blocks)
            && (data.text != "" <==> Narrative(data.text) in blocks)
            && (data.queryDescription != "" <==> Description(data.queryDescription) in blocks))
  {
    var table := if TableShown(data, formatTables) then Some(TableBlock(data.columns, data.rows)) else None;
    BlocksPresent(data.queryDescription, table, data.sqlQuery, data.text);
    TablePresent(data.queryDescription, table, data.sqlQuery, data.text);
    BlockCount(data.queryDescription, table, data.sqlQuery, data.text);
    if TableShown(data, formatTables) {
      assert Rank(table.value) == 1;
    }
  }

  // ---------------------------------------------------------------------
  // The renderer as the program runs it

  /** `col_widths` after one row: each column the row has a cell for widens
      to that cell when the cell is longer. */
  function Widen(widths: seq<nat>, row: seq<Cell>): (w: seq<nat>)
    requires |row| <= |widths|
    ensures |w| == |widths|
    ensures forall j :: 0 <= j < |widths| ==> widths[j] <= w[j]
    ensures forall j :: 0 <= j < |row| ==> |CellText(row[j])| <= w[j]
    ensures forall j :: 0 <= j < |widths| ==> w[j] == widths[j] || (j < |row| && w[j] == |CellText(row[j])|)
  {
    seq(|widths|, j requires 0 <= j < |widths| =>
      if j < |row| then Max(widths[j], |CellText(row[j])|) else widths[j])
  }

  lemma WidenStep(columns: seq<string>, rows: seq<seq<Cell>>, r: nat)
    requires r < |rows| && |rows[r]| <= |columns|
    ensures Widen(ColumnWidths(columns, rows[..r]), rows[r]) == ColumnWidths(columns, rows[..r + 1])
  {
    forall j | 0 <= j < |columns|
      ensures Widen(ColumnWidths(columns, rows[..r]), rows[r])[j] == ColumnWidths(columns, rows[..r + 1])[j]
    {
      ColumnWidthStep(columns[j], rows, r, j);
    }
  }

  /** The inner loop of the width pass over one row: widens `colWidths` in
      place and collects the row's cell strings; it stops as Python's
      IndexError does at a cell with no column. */
  method WidenColumns(colWidths: array<nat>, row: seq<Cell>) returns (ok: bool, formattedCells: seq<string>)
    modifies colWidths
    ensures ok <==> |row| <= colWidths.Length
    ensures ok ==> colWidths[..] == Widen(old(colWidths[..]), row) && formattedCells == CellRow(row)
  {
    ghost var before := colWidths[..];
    formattedCells := [];
    var i := 0;
    while i < |row|
      invariant 0 <= i <= |row| && i <= colWidths.Length
      invariant forall j :: 0 <= j < i ==> colWidths[j] == Max(before[j], |CellText(row[j])|)
      invariant forall j :: i <= j < colWidths.Length ==> colWidths[j] == before[j]
      invariant formattedCells == CellRow(row[..i])
    {
      if i >= colWidths.Length {
        return false, [];
      }
      var cellStr := CellText(row[i]);
      colWidths[i] := Max(colWidths[i], |cellStr|);
      formattedCells := formattedCells + [cellStr];
      assert row[..i + 1] == row[..i] + [row[i]];
      i := i + 1;
    }
    assert row[..i] == row;
    return true, formattedCells;
  }

  /** The width pass: walks every row, widening `col_widths` in place, and
      fails on a row with more cells than there are columns. */
  method ComputeWidths(columns: seq<string>, rows: seq<seq<Cell>>)
    returns (ok: bool, widths: seq<nat>, cellRows: seq<seq<string>>)
    ensures ok <==> RowsFit(columns, rows)
    ensures ok ==> widths == ColumnWidths(columns, rows) && cellRows == CellRows(rows)
  {
    var colWidths := new nat[|columns|](i requires 0 <= i < |columns| => |columns[i]|);
    var dataRows: seq<seq<string>> := [];
    var r := 0;
    while r < |rows|
      invariant 0 <= r <= |rows|
      invariant RowsFit(columns, rows[..r])
      invariant colWidths[..] == ColumnWidths(columns, rows[..r])
      invariant dataRows == CellRows(rows[..r])
    {
      var rowOk, formattedCells := WidenColumns(colWidths, rows[r]);
      if !rowOk {
        return false, [], [];
      }
      WidenStep(columns, rows, r);
      CellRowsStep(rows, r);
      dataRows := dataRows + [formattedCells];
      r := r + 1;
    }
    assert rows[..r] == rows;
    return true, colWidths[..], dataRows;
  }

  /** The table part of the renderer, `try` block and `except` branch. */
  method FormatTable(columns: seq<string>, rows: seq<seq<Cell>>) returns (block: Block)
    ensures block == TableBlock(columns, rows)
  {
    var ok, widths, dataRows := ComputeWidths(columns, rows);
    if !ok {
      return TableError(IndexErrorMessage);
    }
    var paddedHeader := Line(PadAll(columns, widths));
    var paddedDivider := Line(Dashes(widths));
    var paddedDataRows := DataLines(dataRows, widths);
    var markdownTable := paddedHeader + "\n" + paddedDivider + "\n" + Join("\n", paddedDataRows);
    if |markdownTable| > TableCharLimit {
      markdownTable := paddedHeader + "\n" + paddedDivider + "\n"
        + Join("\n", paddedDataRows[..Min(TruncatedRowCount, |paddedDataRows|)]);
      markdownTable := markdownTable + "\n\n" + Footer(|paddedDataRows|);
    }
    return Table(markdownTable);
  }

  /** Builds the block list with appends and one positional insert. */
  method FormatDataframeForSlack(data: QueryResult, formatTables: bool) returns (blocks: seq<Block>)
    ensures blocks == RenderedBlocks(data, formatTables)
  {
    blocks := [];
    if data.queryDescription != "" {
      blocks := blocks + [Description(data.queryDescription)];
    }
    if |data.columns| > 0 && |data.rows| > 0 && formatTables {
      var table := FormatTable(data.columns, data.rows);
      blocks := blocks + [table];
    }
    if data.sqlQuery != "" {
      blocks := blocks + [Sql(data.sqlQuery)];
    }
    assert blocks == AppendedBlocks(data.queryDescription,
      if TableShown(data, formatTables) then Some(TableBlock(data.columns, data.rows)) else None, data.sqlQuery);
    if data.text != "" {
      blocks := InsertAt(blocks, 1, Narrative(data.text));
    }
    if blocks == [] {
      blocks := blocks + [NoResults];
    }
  }
}

=== FILE: results.dfy ===
/** The normalized answer of one question: what the orchestrator returns and
    what the renderer and the message handler consume. */
module Results {
  import opened Basics

  /** One value of a result set's `data_array`: a string, or `None` for SQL NULL. */
  type Cell = Option<string>

  /** `str(cell or "")`: a missing or empty value renders as the empty string. */
  function CellText(c: Cell): string
  {
    match c
    case None => ""
    case Some(v) => v
  }

  /** The `"result"` dictionary of a successful query. Each field holds its
      default ("" or []) when the backend did not supply it. */
  datatype QueryResult = QueryResult(
    text: string,
    queryDescription: string,
    columns: seq<string>,
    rows: seq<seq<Cell>>,
    sqlQuery: string)

  /** What a query returns: `{"result": …}` or `{"error": …}`. */
  datatype QueryOutcome = Answer(result: QueryResult) | Error(error: string)
}

=== FILE: strings.dfy ===
/** The Python string operations the renderer and the message handler use:
    `str.join`, `str.split` (the partner of `join`), `str.ljust`, `str.strip`
    and the decimal rendering of a row count in an f-string. */
module Strings {
  import opened Basics

  /** `sep.join(parts)`: the first part opens the result. */
  function Join(sep: string, parts: seq<string>): (r: string)
    ensures |parts| > 0 ==> parts[0] <= r
    decreases |parts|
  {
    if |parts| == 0 then ""
    else if |parts| == 1 then parts[0]
    else parts[0] + sep + Join(sep, parts[1..])
  }

  /** Joining two non-empty lists is joining their joins. */
  lemma {:induction false} JoinConcat(sep: string, a: seq<string>, b: seq<string>)
    requires |a| > 0 && |b| > 0
    ensures Join(sep, a + b) == Join(sep, a) + sep + Join(sep, b)
    decreases |a|
  {
    if |a| == 1 {
      assert (a + b)[1..] == b;
    } else {
      assert (a + b)[1..] == a[1..] + b;
      JoinConcat(sep, a[1..], b);
    }
  }

  /** Joining a list that starts with two given lines. */
  lemma JoinTwoThen(sep: string, x: string, y: string, rest: seq<string>)
    requires |rest| > 0
    ensures Join(sep, [x, y] + rest) == x + sep + y + sep + Join(sep, rest)
  {
    var r := Join(sep, rest);
    assert ([y] + rest)[1..] == rest;
    assert Join(sep, [y] + rest) == y + sep + r;
    assert ([x, y] + rest)[1..] == [y] + rest;
    assert Join(sep, [x, y] + rest) == x + sep + (y + sep + r);
  }

  /** Joining a non-empty list with one more line. */
  lemma JoinSnoc(sep: string, parts: seq<string>, x: string)
    requires |parts| > 0
    ensures Join(sep, parts + [x]) == Join(sep, parts) + sep + x
  {
    JoinConcat(sep, parts, [x]);
  }

  /** Two newlines in a row are a newline, an empty line and a newline. */
  lemma BlankLine(prefix: string, last: string)
    ensures prefix + "\n\n" + last == prefix + "\n" + "" + "\n" + last
  {
    assert prefix + "\n" + "" == prefix + "\n";
  }

  /** Two lines, more lines, a blank line and a last line, joined by newlines. */
  lemma JoinWithTrailer(x: string, y: string, rest: seq<string>, last: string)
    requires |rest| > 0
    ensures x + "\n" + y + "\n" + Join("\n", rest) + "\n\n" + last
         == Join("\n", [x, y] + rest + ["", last])
  {
    var body := [x, y] + rest;
    var prefix := x + "\n" + y + "\n" + Join("\n", rest);
    var withBlank := Join("\n", body + [""]);
    assert withBlank == prefix + "\n" + "" by {
      JoinTwoThen("\n", x, y, rest);
      JoinSnoc("\n", body, "");
    }
    assert Join("\n", body + ["", last]) == withBlank + "\n" + last by {
      JoinSnoc("\n", body + [""], last);
      AppendPair(body, "", last);
    }
    assert prefix + "\n\n" + last == withBlank + "\n" + last by {
      BlankLine(prefix, last);
    }
  }

  /** A character that occurs neither in the separator nor in any part does
      not occur in the joined string. */
  lemma {:induction false} JoinAvoids(sep: string, parts: seq<string>, c: char)
    requires c !in sep
    requires forall i :: 0 <= i < |parts| ==> c !in parts[i]
    ensures c !in Join(sep, parts)
    decreases |parts|
  {
    if |parts| > 1 {
      JoinAvoids(sep, parts[1..], c);
    }
  }

  /** `s.split(c)` for a one-character separator. */
  function Split(s: string, c: char): (r: seq<string>)
    ensures |r| >= 1
  {
    if s == [] then [""]
    else
      var rest := Split(s[1..], c);
      if s[0] == c then [""] + rest else [[s[0]] + rest[0]] + rest[1..]
  }

  lemma {:induction false} SplitWithoutSeparator(s: string, c: char)
    requires c !in s
    ensures Split(s, c) == [s]
  {
    if s != [] {
      SplitWithoutSeparator(s[1..], c);
      assert [s[0]] + s[1..] == s;
    }
  }

  lemma {:induction false} SplitAtFirstSeparator(s: string, t: string, c: char)
    requires c !in s
    ensures Split(s + [c] + t, c) == [s] + Split(t, c)
  {
    var u := s + [c] + t;
    if s == [] {
      assert u[1..] == t;
    } else {
      assert u[1..] == s[1..] + [c] + t;
      SplitAtFirstSeparator(s[1..], t, c);
      assert [s[0]] + s[1..] == s;
    }
  }

  /** Splitting a join on its one-character separator gives the parts back,
      provided no part contains the separator. */
  lemma {:induction false} SplitJoin(parts: seq<string>, c: char)
    requires |parts| >= 1
    requires forall i :: 0 <= i < |parts| ==> c !in parts[i]
    ensures Split(Join([c], parts), c) == parts
    decreases |parts|
  {
    if |parts| == 1 {
      SplitWithoutSeparator(parts[0], c);
    } else {
      SplitJoin(parts[1..], c);
      SplitAtFirstSeparator(parts[0], Join([c], parts[1..]), c);
      assert [parts[0]] + parts[1..] == parts;
    }
  }

  /** `s.ljust(width)`: `s` followed by spaces up to `width` characters; a
      string already that long is returned unchanged. */
  function LeftJustify(s: string, width: nat): (r: string)
    ensures |r| == Max(|s|, width)
    ensures r[..|s|] == s
    ensures forall i :: |s| <= i < |r| ==> r[i] == ' '
  {
    if |s| >= width then s else s + Repeat(' ', width - |s|)
  }

  /** Padding adds only spaces. */
  lemma JustifyAvoids(s: string, width: nat, c: char)
    requires c !in s && c != ' '
    ensures c !in LeftJustify(s, width)
  {
    var r := LeftJustify(s, width);
    forall k | 0 <= k < |r|
      ensures r[k] != c
    {
      if k < |s| {
        assert r[k] == r[..|s|][k] == s[k];
      }
    }
  }

  /** The characters Python's `str.isspace` accepts, which are the ones
      `str.strip()` removes. */
  predicate IsSpace(c: char)
  {
    c == ' ' || c == '\t' || c == '\n' || c == '\r' || c == '\U{0B}' || c == '\U{0C}'
    || ('\U{1C}' <= c <= '\U{1F}') || c == '\U{85}' || c == '\U{A0}' || c == '\U{1680}'
    || ('\U{2000}' <= c <= '\U{200A}') || c == '\U{2028}' || c == '\U{2029}'
    || c == '\U{202F}' || c == '\U{205F}' || c == '\U{3000}'
  }

  function TrimStart(s: string): (r: string)
    ensures |r| <= |s| && r == s[|s| - |r|..]
    ensures r != [] ==> !IsSpace(r[0])
    ensures forall i :: 0 <= i < |s| - |r| ==> IsSpace(s[i])
  {
    if s != [] && IsSpace(s[0]) then
      var r := TrimStart(s[1..]);
      assert s[1..][|s| - 1 - |r|..] == s[|s| - |r|..];
      assert forall i :: 1 <= i < |s| - |r| ==> s[i] == s[1..][i - 1];
      r
    else s
  }

  function TrimEnd(s: string): (r: string)
    ensures |r| <= |s| && r == s[..|r|]
    ensures r != [] ==> !IsSpace(r[|r| - 1])
    ensures forall i :: |r| <= i < |s| ==> IsSpace(s[i])
  {
    if s != [] && IsSpace(s[|s| - 1]) then
      var r := TrimEnd(s[..|s| - 1]);
      assert s[..|s| - 1][..|r|] == s[..|r|];
      assert forall i :: |r| <= i < |s| - 1 ==> s[i] == s[..|s| - 1][i];
      r
    else s
  }

  /** `s.strip()`: the longest middle part of `s` that neither starts nor
      ends with whitespace; it is empty exactly when `s` is all whitespace. */
  function Strip(s: string): (r: string)
    ensures r == "" <==> forall i :: 0 <= i < |s| ==> IsSpace(s[i])
    ensures r != "" ==> !IsSpace(r[0]) && !IsSpace(r[|r| - 1])
    ensures exists i, j :: StrippedAt(s, r, i, j)
  {
    StripSlices(s, TrimStart(s), TrimEnd(TrimStart(s)));
    TrimEnd(TrimStart(s))
  }

  /** Whitespace cut from the front of `s` to give `t`, then from the back
      of `t` to give `r`, leaves `r` as a middle slice of `s`. */
  lemma StripSlices(s: string, t: string, r: string)
    requires |t| <= |s| && t == s[|s| - |t|..]
    requires forall k :: 0 <= k < |s| - |t| ==> IsSpace(s[k])
    requires |r| <= |t| && r == t[..|r|]
    requires forall k :: |r| <= k < |t| ==> IsSpace(t[k])
    ensures StrippedAt(s, r, |s| - |t|, |s| - |t| + |r|)
  {
    var i := |s| - |t|;
    forall k | i + |r| <= k < |s| ensures IsSpace(s[k]) {
      assert s[k] == t[k - i];
    }
  }

  /** `r` is `s[i..j]`, and everything of `s` before `i` and from `j` on is
      whitespace. */
  predicate StrippedAt(s: string, r: string, i: int, j: int)
  {
    && 0 <= i <= j <= |s| && r == s[i..j]
    && (forall k :: 0 <= k < i ==> IsSpace(s[k]))
    && (forall k :: j <= k < |s| ==> IsSpace(s[k]))
  }

  function DigitChar(d: nat): (c: char)
    requires d < 10
    ensures '0' <= c <= '9'
    ensures c == '0' <==> d == 0
  {
    (48 + d) as char
  }

  /** The decimal digits of `n`, as an f-string renders an integer: no
      leading zero except for 0 itself. */
  function NatToString(n: nat): (s: string)
    ensures |s| >= 1
    ensures forall i :: 0 <= i < |s| ==> '0' <= s[i] <= '9'
    ensures s[0] == '0' ==> n == 0
    decreases n
  {
    if n < 10 then [DigitChar(n)] else NatToString(n / 10) + [DigitChar(n % 10)]
  }

  /** The number a string of decimal digits denotes (the partner of NatToString). */
  function DecimalValue(s: string): nat
    requires forall i :: 0 <= i < |s| ==> '0' <= s[i] <= '9'
  {
    if s == [] then 0
    else DecimalValue(s[..|s| - 1]) * 10 + (s[|s| - 1] as int - '0' as int)
  }

  /** The rendered count reads back as the count itself. */
  lemma {:induction false} DecimalRoundTrip(n: nat)
    ensures DecimalValue(NatToString(n)) == n
    decreases n
  {
    var s := NatToString(n);
    if n >= 10 {
      DecimalRoundTrip(n / 10);
      assert s[..|s| - 1] == NatToString(n / 10);
    }
  }
}
